=== FILE: README.md ===
# mist.io keys, machine metadata and machine view — a Dafny model

mist.io is a web dashboard for cloud machines. Its Pyramid handlers in
`src/mist/io/views.py` keep a dictionary of SSH keypairs in the
application settings. Each keypair has public and private material, an
optional `default` flag and an optional list of `[backend_id, machine_id]`
associations. The handlers also turn provider node records into the
client's machine listing. The Ember view
`src/mist/io/static/js/app/views/machine.js` then shows one machine: the
state of its buttons, its uptime, and the keys that are and are not
associated with it.

This project models that core:

- `common.dfy` (`Common`) holds shared values: optional values, Python
  truthiness, association pairs and dictionaries.
- `text.dfy` (`Text`) renders integers as decimal text, reads the text
  back, and models Python's `str.split` on one character.
- `keystore.dfy` (`Keys`) models the keypair store twice:
  - as a value, with one function per key handler (`add_key`,
    `set_default_key`, `delete_key`, the three association handlers,
    `list_keys`, `get_private_key`);
  - as a mutable class `KeyStore`, whose methods change the dictionary step
    by step as the handlers do, and are proved to end where the functions
    say.
- `provisioning.dfy` (`Provisioning`) models the decisions of
  `create_machine`: payload validation, the four creation branches, EC2
  location lookup, and the association bookkeeping after a node is created.
- `metadata.dfy` (`Metadata`) models provider records:
  - the per-node loop of `list_machines` (tags, image, size);
  - `list_locations`;
  - the `provider:region` parsing of `add_backend`;
  - the decisions of `delete_machine_metadata`.
- `machineview.dfy` (`MachineView`) models `machine.js`:
  - the disabled-class helpers and `name`;
  - `upFor`, with its JavaScript `%` and `Math.floor`;
  - `machineKeys` and `machineKeysRest`.

The store remembers an iteration order for its keys (`Store.order`),
because `delete_key` promotes "the first" remaining key and `list_keys`
lists the keys in that order. The model fixes that order as insertion
order; see "## Left out" for how the Python 2 code differs. Cloud SDK answers are parameters of the functions and
methods, never calls. These are the node and location lists, the success of
each creation call, and the `STATES` and `LINODE_DATACENTERS` tables.

Every reachable store has at most one key marked default
(`Keys.AtMostOneDefault`). The empty store the handlers start from has none.
Every handler and the bookkeeping of `create_machine` keep the property,
from any well-formed store. The stronger "a non-empty store has exactly one
default" (`Keys.OneDefault`) is not kept on every path: `add_key` over the
default key and `set_default_key` on a missing name both leave a non-empty
store without a default.

In these edge cases the model follows the code, which a reader may not
expect:

- `add_key` silently replaces an existing key of the same name.
- `set_default_key` on an unknown name first clears every default flag, and
  only then raises `KeyError`, without saving.
- `delete_key` of the only key, when it is the default, raises an
  `IndexError` that its `except KeyError` does not catch. See Findings.
- `associate_key_to_machine` and `disassociate_key_to_machine` raise
  `KeyError` on a key that has no `machines` field yet, such as any key
  made by `add_key`. `associate_key_to_machines` and `create_machine`
  instead create the list.
- A creation with a selected keypair records an association only in the
  Rackspace, EC2 and Linode branches. A keypair with a public key on any
  other provider takes the generic branch, and nothing is recorded.
- Deleting a tag value that no entry holds:
  - on EC2, fails with 503, because `pair` is never bound;
  - elsewhere, sends the metadata back unchanged.

## Model

| member | source | states |
|---|---|---|
| Text.Split | src/mist/io/views.py:114-115 | `str.split(':')`: at least one piece; at least two when the separator occurs; no piece contains it; joining the pieces gives back the input |
| Keys.Added | src/mist/io/views.py:785-804 | `add_key` keeps the store well formed, replies done and saved, adds exactly `name`, and leaves every other record unchanged |
| Keys.DefaultSet | src/mist/io/views.py:808-822 | `set_default_key` keeps the key order and the key set |
| Keys.Deleted | src/mist/io/views.py:952-967 | `delete_key` keeps the store well formed and removes exactly `name` from the key set, including on its error paths |
| Keys.DeletedAsIntended | src/mist/io/views.py:956-964 | corrected `delete_key`: removes `name`; a present name always completes and is saved; a missing name raises `KeyError` and changes nothing |
| Keys.Associated | src/mist/io/views.py:866-893 | `associate_key_to_machine` answers 404 unsaved and changes nothing for an unknown name; otherwise it keeps order, keys and every default flag, and touches no other record |
| Keys.AssociatedAll | src/mist/io/views.py:826-862 | `associate_key_to_machines` answers 404 unsaved and changes nothing for an unknown name, and otherwise always replies done and saves; it keeps order, keys and every default flag, and touches no other record |
| Keys.Disassociated | src/mist/io/views.py:896-924 | `disassociate_key_to_machine` keeps order, keys and every default flag, and touches no other record |
| Keys.Recorded | src/mist/io/views.py:304-309 | after a creation the keypair's list is its old list (none read as empty) plus `[backend_id, node_id]`; material, flag and other records are unchanged |
| Keys.KeepPairs | src/mist/io/views.py:848-857 | the items kept are at most as many as given, and each has at least two elements |
| Keys.RemoveFirst | src/mist/io/views.py:920 | `list.remove`: one element shorter when the element occurs, the list unchanged when it does not |
| Keys.ListKeys | src/mist/io/views.py:756-773 | one entry per key, each the public view of that key's record, every key listed, no name twice |
| Keys.GetPrivateKey | src/mist/io/views.py:928-949 | the private material exactly when the name is a key; not found otherwise |
| Keys.KeyStore.constructor | src/mist/io/views.py:766 | an empty, well-formed keypair dictionary |
| Keys.KeyStore.AddKey | src/mist/io/views.py:785-804 | the in-place update ends in `Added`; `default_key` of the reply is true exactly when the store was empty |
| Keys.KeyStore.SetDefaultKey | src/mist/io/views.py:808-822 | the clearing loop and the final assignment end in `DefaultSet` |
| Keys.KeyStore.ClearDefaults | src/mist/io/views.py:814-816 | the loop over the keys clears every default flag and changes nothing else: each record becomes its cleared form, keys and order are kept |
| Keys.KeyStore.DeleteKey | src/mist/io/views.py:952-967 | the pop and promotion end in `Deleted`, including the escaping `IndexError` |
| Keys.KeyStore.AssociateKeyToMachine | src/mist/io/views.py:866-893 | the membership test and append end in `Associated` |
| Keys.KeyStore.AssociateKeyToMachines | src/mist/io/views.py:848-860 | emptying the list and the loop that skips items shorter than two end in `AssociatedAll` |
| Keys.KeyStore.DisassociateKeyToMachine | src/mist/io/views.py:916-924 | the loop that removes the first equal pair and saves ends in `Disassociated` |
| Keys.KeyStore.RecordMachine | src/mist/io/views.py:304-309 | the association bookkeeping of `create_machine` ends in `Recorded` |
| Keys.AddKeyToEmptyStore | src/mist/io/views.py:792-793 | the first key added to an empty store is its only default |
| Keys.AddKeyToNonEmptyStore | src/mist/io/views.py:789-795 | in a non-empty store the new record has no flag and no associations, whatever it replaces |
| Keys.AddKeyKeepsOneDefault | src/mist/io/views.py:785-804 | adding a new name, or replacing a key that is not the default, keeps exactly one default |
| Keys.AddKeyKeepsDefault | src/mist/io/views.py:789-795 | a key added under another name than the default's leaves that key the only default |
| Keys.AddKeyOverDefaultLosesDefault | src/mist/io/views.py:792-795 | replacing the default key leaves a non-empty store with no default |
| Keys.SetDefaultKeyMakesOnlyDefault | src/mist/io/views.py:814-818 | on a present name exactly that key is default afterwards; no material changes; records that were not default are untouched |
| Keys.SetDefaultKeyOnMissingName | src/mist/io/views.py:814-818 | on a missing name `KeyError` escapes unsaved, after every default was cleared |
| Keys.DeleteMissingKey | src/mist/io/views.py:956 | deleting a missing name raises `KeyError` and changes nothing |
| Keys.DeleteNonDefaultKey | src/mist/io/views.py:956-965 | deleting a non-default key removes exactly that record and saves |
| Keys.DeleteDefaultKeyPromotesFirst | src/mist/io/views.py:957-962 | deleting the default while others remain makes the first remaining key the only default and changes nothing else |
| Keys.FirstRemaining | src/mist/io/views.py:961 | the key `keys()[0]` picks after the pop is the first key other than the deleted one |
| Keys.DeleteKeyKeepsOneDefault | src/mist/io/views.py:952-967 | `delete_key` keeps the single-default invariant on every path |
| Keys.DeleteSoleDefaultKeyRaises | src/mist/io/views.py:960-964 | for every store whose only key is the default, deleting it empties the store, but `IndexError` escapes and nothing is saved |
| Keys.DeleteAsIntendedCompletes | src/mist/io/views.py:957-965 | with the intended handling, deleting a present key always completes, saves and keeps one default |
| Keys.AssociateIsIdempotent | src/mist/io/views.py:886-889 | a second identical association changes nothing |
| Keys.AssociateListsPairOnce | src/mist/io/views.py:886-891 | the list is unchanged when the pair was listed and the old list plus the pair otherwise; so the pair is listed, the old list is a prefix, and a duplicate-free list stays so |
| Keys.AssociateNewKeyRaises | src/mist/io/views.py:888-918 | on a key just made by `add_key`, which has no `machines` field, both single-pair handlers raise `KeyError` and change nothing |
| Keys.AssociateThenDisassociate | src/mist/io/views.py:886-922 | associating an unlisted pair and then disassociating it restores the store |
| Keys.DisassociateRemovesFirst | src/mist/io/views.py:918-922 | disassociation removes the first occurrence only and keeps the rest in order |
| Keys.RemoveFirstCounts | src/mist/io/views.py:920 | `list.remove` takes away exactly one copy of the pair when there is one, and nothing otherwise |
| Keys.DisassociateAbsentPair | src/mist/io/views.py:911-924 | an absent pair changes and saves nothing; not found exactly for an unknown name |
| Keys.AssociateKeyToMachinesReplaces | src/mist/io/views.py:848-857 | the list becomes exactly the items of length at least two, in input order; material and flag are kept |
| Keys.RecordMachineAddsOneEntry | src/mist/io/views.py:304-309 | recording grows the list by one, adds one more copy of the pair even if listed, keeps the old list as prefix |
| Keys.AssociationsKeepOneDefault | src/mist/io/views.py:826-924 | the association handlers and creation bookkeeping keep the single-default invariant |
| Keys.AddKeyKeepsAtMostOneDefault | src/mist/io/views.py:785-804 | `add_key` marks a key default only in an empty store, so at most one default stays at most one |
| Keys.SetDefaultKeyLeavesAtMostOneDefault | src/mist/io/views.py:808-822 | `set_default_key` leaves at most one default from any store, even one with several |
| Keys.DeleteKeyKeepsAtMostOneDefault | src/mist/io/views.py:952-967 | `delete_key` keeps at most one default on every path, promotion included |
| Keys.AssociateKeepsAtMostOneDefault | src/mist/io/views.py:866-893 | `associate_key_to_machine` keeps at most one default |
| Keys.AssociateAllKeepsAtMostOneDefault | src/mist/io/views.py:826-862 | `associate_key_to_machines` keeps at most one default |
| Keys.DisassociateKeepsAtMostOneDefault | src/mist/io/views.py:896-924 | `disassociate_key_to_machine` keeps at most one default |
| Keys.RecordKeepsAtMostOneDefault | src/mist/io/views.py:304-309 | the bookkeeping after a creation keeps at most one default |
| Keys.ListKeysFlagsTheDefault | src/mist/io/views.py:768-772 | `list_keys` flags exactly the default key, which is listed |
| Keys.PrivateKeyRoundTrip | src/mist/io/views.py:789-795 | the private material given to `add_key` is what `get_private_key` returns |
| Provisioning.ChooseBranch | src/mist/io/views.py:293-368 | Rackspace deploy, EC2 deploy and Linode create each run exactly under their provider test and a non-empty public key; otherwise generic |
| Provisioning.DeployBranchNeedsPublicKey | src/mist/io/views.py:293-348 | a key-deploying branch runs exactly when there is a public key and the provider is Rackspace, EC2 or Linode |
| Provisioning.ParsePayload | src/mist/io/views.py:267-278 | the payload is valid exactly when the six required fields are present; fields are copied; `script` defaults to empty |
| Provisioning.Creation | src/mist/io/views.py:218-382 | every outcome keeps the keystore well formed |
| Provisioning.CreateMachine | src/mist/io/views.py:267-377 | the handler, with its EC2 location search loop, ends in the state and outcome `Creation` gives |
| Provisioning.CreationOutcomes | src/mist/io/views.py:267-377 | an invalid payload answers 400 and changes nothing; a node is created exactly for a valid payload, a listed EC2 location id, a successful EC2 key import and security group when that branch runs, and a node from the SDK, and the outcome carries that node's id |
| Provisioning.CreationSucceedsAndRecords | src/mist/io/views.py:298-363 | under those conditions the creation succeeds, and through a key-deploying branch it saves the store with `[backend_id, node_id]` recorded against the selected keypair |
| Provisioning.CreationRecordsOneEntry | src/mist/io/views.py:298-363 | a key-deploying creation that yields a node saves, adds one `[backend_id, node_id]` entry to that keypair only, and keeps the old list as prefix |
| Provisioning.FailedCreationRecordsNothing | src/mist/io/views.py:267-375 | any outcome other than a created node leaves the store unchanged and unsaved; a failing SDK call never yields a node |
| Provisioning.GenericCreationRecordsNothing | src/mist/io/views.py:368-375 | the generic branch leaves the store unchanged and unsaved, even with a selected keypair, with or without a public key |
| Provisioning.CreationKeepsAtMostOneDefault | src/mist/io/views.py:218-382 | every outcome of `create_machine` keeps at most one default key |
| Provisioning.Ec2SetupFailureLeavesNodeUnbound | src/mist/io/views.py:323-377 | on EC2 a failed key import or security group leaves `node` unbound and records nothing |
| Metadata.TagValues | src/mist/io/views.py:187 | there are never more tags than dictionary entries |
| Metadata.TagValuesConcat | src/mist/io/views.py:187 | the tags of a concatenation are the concatenation of the tags, so order is kept |
| Metadata.TagValuesMembers | src/mist/io/views.py:187 | a value is a tag exactly when an entry not keyed `Name` holds it |
| Metadata.NameEntryIgnored | src/mist/io/views.py:187 | removing an entry keyed `Name` does not change the tags |
| Metadata.MachineTags | src/mist/io/views.py:185-194 | at most one tag per entry of the tag dictionary, plus the location tag |
| Metadata.NormalizeMachine | src/mist/io/views.py:183-213 | id, name and extra are copied; the image is `image` or `extra.imageId` and is truthy exactly when one of them is; the size likewise over `size`, `flavorId` and `instancetype`; at most one tag per entry plus the location tag |
| Metadata.ListMachines | src/mist/io/views.py:183-213 | one machine per node, in order, each the normalisation of its node |
| Metadata.MachineTagsMembers | src/mist/io/views.py:185-194 | a listed tag is a non-`Name` value of `tags`, else of `metadata`, or the location tag |
| Metadata.LocationTagIsLast | src/mist/io/views.py:189-194 | the availability zone, else the Linode datacenter name, is appended last when present |
| Metadata.NameOnlyTagsHideMetadata | src/mist/io/views.py:185-187 | a `tags` dictionary holding only `Name` yields no tags, whatever `metadata` holds |
| Metadata.ImageAndSizeFallbacks | src/mist/io/views.py:196-199 | image falls back to `imageId`; size falls back to `flavorId`, then `instancetype` |
| Metadata.ListLocations | src/mist/io/views.py:740-752 | one entry per location, id and country copied; the name is the availability zone on EC2 and the location name elsewhere |
| Metadata.ParseBackend | src/mist/io/views.py:107-118 | no provider entry is rejected; empty credentials are invalid; an accepted provider is truthy with both credentials; named providers and regions are free of colons; a numeric code is accepted exactly when it is non-zero and both credentials are given, and is kept with an empty region |
| Metadata.ParseBackendRoundTrip | src/mist/io/views.py:113-115 | `"<provider>:<region>"` reads back as its two parts |
| Metadata.ParseBackendWithoutRegion | src/mist/io/views.py:113-118 | a provider without a colon is taken whole, with an empty region |
| Metadata.ParseBackendCode | src/mist/io/views.py:113-118 | a non-zero provider code with both credentials is accepted as it is, with an empty region |
| Metadata.ParseBackendDropsThirdSegment | src/mist/io/views.py:114-115 | text after a second colon is dropped |
| Metadata.ParseBackendEmptyProvider | src/mist/io/views.py:115-118 | a provider string starting with a colon is rejected as invalid |
| Metadata.FirstWithId | src/mist/io/views.py:591-594 | the index of the first node with the id, or none when no node has it |
| Metadata.FirstWithValue | src/mist/io/views.py:601-604 | the index of the first entry holding the value, or none when no entry holds it |
| Metadata.DeleteTag | src/mist/io/views.py:556-627 | 501 exactly on Linode and first-generation Rackspace; the unbound `machine` exactly when the listing has no node with the id; a request is sent only for a found node, a tag deletion exactly on EC2 and a metadata replacement elsewhere; the unbound `pair` only on EC2 |
| Metadata.DeleteFrom | src/mist/io/views.py:596-623 | 404 exactly without a tag dictionary; the unbound `pair` exactly on EC2 when no entry holds the value; an EC2 request deletes a tag with that value; replaced metadata is never longer than the old |
| Metadata.DeleteMachineMetadata | src/mist/io/views.py:578-620 | the handler, with its node search loop, ends in the outcome `DeleteTag` gives |
| Metadata.DeleteFromDict | src/mist/io/views.py:598-623 | the search of the tag dictionary ends in the outcome `DeleteFrom` gives: no dictionary, unbound EC2 pair, the EC2 pair, or the metadata to send back |
| Metadata.DeleteMetadataRemovesFirstMatch | src/mist/io/views.py:613-623 | outside EC2 the metadata sent back is the old one without its first matching entry: one shorter, one copy fewer, order kept |
| Metadata.DeleteEc2TagSendsFirstMatch | src/mist/io/views.py:599-609 | on EC2 the pair sent for deletion is the first entry holding the value |
| Metadata.DeleteTagWithoutMatch | src/mist/io/views.py:598-623 | with no matching entry EC2 fails on the unbound pair, and other providers send the metadata back unchanged |
| MachineView.DisabledShellClass | src/mist/io/static/js/app/views/machine.js:14-20 | the shell button is enabled exactly for a running machine with a key |
| MachineView.DisabledTagClass | src/mist/io/static/js/app/views/machine.js:22-28 | the tag button is enabled exactly for a machine that can be tagged |
| MachineView.DisabledPowerClass | src/mist/io/static/js/app/views/machine.js:30-36 | the power button is disabled exactly for a terminated machine |
| MachineView.ShellEnabledImpliesPowerEnabled | src/mist/io/static/js/app/views/machine.js:14-36 | an enabled shell implies enabled power; without a machine shell is disabled and power is not |
| MachineView.Name | src/mist/io/static/js/app/views/machine.js:142-147 | the machine's name, else its id; empty without a machine |
| MachineView.JsRem | src/mist/io/static/js/app/views/machine.js:154-158 | JavaScript `%`: the remainder on a non-negative dividend, the negated remainder of the negated dividend on a negative one, always within the divisor |
| MachineView.Breakdown | src/mist/io/static/js/app/views/machine.js:152-160 | for a non-negative uptime: hours below 24, minutes and seconds below 60, and the parts add up to the whole seconds |
| MachineView.NegativeUptimeBreakdown | src/mist/io/static/js/app/views/machine.js:152-160 | an uptime of -1000 ms gives -1 in every unit, and the units do not add up to the uptime |
| MachineView.UptimeText | src/mist/io/static/js/app/views/machine.js:162-178 | the uptime text always ends in " seconds" |
| MachineView.UpFor | src/mist/io/static/js/app/views/machine.js:149-185 | empty exactly without a machine or with zero uptime; otherwise the rendering of the breakdown |
| MachineView.UptimeRoundTrip | src/mist/io/static/js/app/views/machine.js:162-178 | the rendering of any breakdown with non-negative parts reads back as that breakdown |
| MachineView.UpForReadsBack | src/mist/io/static/js/app/views/machine.js:149-185 | the uptime text of any non-negative uptime reads back as its breakdown |
| MachineView.MatchCount | src/mist/io/static/js/app/views/machine.js:60-64 | how many associations name the machine: at most the list length, positive exactly when one does |
| MachineView.MachineKeys | src/mist/io/static/js/app/views/machine.js:52-67 | the nested loops give the associated keys, or throw on a key whose `machines` is not a list |
| MachineView.PushMatching | src/mist/io/static/js/app/views/machine.js:60-64 | the inner loop pushes the key once for every item naming the machine |
| MachineView.MachineKeysRest | src/mist/io/static/js/app/views/machine.js:75-95 | the nested loops give the unassociated keys, or throw on a key whose `machines` is not a list |
| MachineView.NamesMachine | src/mist/io/static/js/app/views/machine.js:84-89 | the inner loop sets `hasMachine` exactly when some item names the machine |
| MachineView.AssociatedKeys | src/mist/io/static/js/app/views/machine.js:57-66 | the associated keys are taken from the key list |
| MachineView.UnassociatedKeys | src/mist/io/static/js/app/views/machine.js:79-94 | the unassociated keys are at most the key list and taken from it |
| MachineView.MachineKeysResult | src/mist/io/static/js/app/views/machine.js:52-67 | `machineKeys` throws exactly for a machine and a key without an association list; without a machine it is empty |
| MachineView.MachineKeysRestResult | src/mist/io/static/js/app/views/machine.js:75-95 | `machineKeysRest` throws exactly for a machine and a key without an association list; without a machine it is empty |
| MachineView.AssociatedKeysMembers | src/mist/io/static/js/app/views/machine.js:57-66 | a key is in the associated list exactly when one of its associations names the machine |
| MachineView.UnassociatedKeysMembers | src/mist/io/static/js/app/views/machine.js:79-94 | a key is in the rest exactly when none of its associations names the machine |
| MachineView.KeysPartition | src/mist/io/static/js/app/views/machine.js:52-95 | every key is in exactly one of the two lists |
| MachineView.KeyListsConcat | src/mist/io/static/js/app/views/machine.js:59-65 | both lists keep the order of the key list |
| MachineView.NewKeyBreaksKeyLists | src/mist/io/static/js/app/views/machine.js:60 | after `add_key`, `list_keys` gives the new key no association list, and both helpers throw |

## Left out

- Every call into the cloud SDK is a parameter: connecting, listing nodes,
  locations, images and sizes, creating or deploying nodes, importing keys,
  security groups, tag and metadata updates. The same holds for the
  `STATES` and `LINODE_DATACENTERS` tables. Their failures appear only where
  a handler branches on them, with the exceptions listed next.
- A failing `connect` answers 404 "Backend not found" in `create_machine`
  (views.py:239-242), `delete_machine_metadata` (views.py:573-576) and
  `list_locations` (views.py:730-733). In `list_machines` it answers 503
  on a `RuntimeError` and 404 otherwise (views.py:170-176). The model
  assumes the connection succeeds, so `Provisioning.Creation`,
  `Metadata.DeleteTag`, `Metadata.ListLocations` and
  `Metadata.ListMachines` have no such outcome.
- Metadata.ListLocations: the 503 "Backend unavailable" when listing
  locations fails (views.py:735-738) is not modelled.
- Saving to disk (`save_settings`, `save_keypairs`) is a `flushed` flag.
  Reading from the session store before the settings is left out; the model
  has one store.
- Concurrency between requests is left out. Handlers run one at a time.
- These handlers are not part of this model:
  - `set_machine_metadata`, `start_machine`, `stop_machine`,
    `reboot_machine` and `destroy_machine`;
  - `home`, `list_backends`, `delete_backend`, `list_images` and
    `list_sizes`;
  - `generate_keypair`, which uses RSA and randomness;
  - `shell_command`, `check_monitoring` and `update_monitoring`.
- These parts of the core are left out:
  - in `add_backend`, everything after parsing: the `sha256` backend id and
    the settings entry;
  - in `create_machine`, the temporary key files, the deploy script, the
    `get_keypair` and `get_keypair_by_name` helpers (a parameter names the
    selected keypair), and the reply fields besides the node id.
- Metadata.ListMachines: the `uuid` field and the `get_machine_actions`
  entries are not modelled, and neither is the 503 when listing nodes
  fails.
- Metadata.ListLocations: every EC2 location is assumed to carry an
  availability zone.
- Metadata.DeleteMachineMetadata: the outcome stops at the request sent to
  the provider. The provider's own failure (503) is not modelled.
- Provisioning.ParsePayload: the request body is a string dictionary, so
  a non-string `script` is not modelled. Neither is the 400 that `str()`
  raises on non-ASCII text.
- Provisioning.CreateMachine: an EC2 location id that matches no
  location's id ends as `CreationFailed`. In the code this is the `NameError`
  the `try` around node creation turns into a 500.
- Python 2 dictionaries iterate in hash order, and a resize after an
  insertion can reorder them. The model puts a new key last instead. So
  after an `add_key`, the key `delete_key` promotes and the order of
  `list_keys` are the model's choice, not what the code does.
- Metadata.ParseBackend and Metadata.ParseBackendCode: a numeric provider
  code is assumed to fit a Python 2 `int`. A JSON number above
  `sys.maxint` parses as a `long`, fails the `int` class test and raises
  `TypeError` at `':' in provider` (views.py:113); that is not modelled.
- MachineView.Breakdown: its bounds and its sum identity are stated for
  non-negative uptimes only. For a negative uptime the code's breakdown
  does not add up (`NegativeUptimeBreakdown`).
- MachineView.UpFor: uptimes are integers of milliseconds. Fractional and
  `NaN` uptimes are not modelled, and an absent uptime reads as 0.
- Keys.KeepPairs and Keys.KeyStore.AssociateKeyToMachines: the items of
  `machine_backend_list` are lists of strings. In the code any item on
  which `pair[0]` and `pair[1]` succeed is stored, such as a string of two
  or more characters; such items are not modelled.
- MachineView.MachineKeys: an item of `machines` that is not a list reads
  as unmatched. In the code a string of two or more characters is indexed.
- The rest of `machine.js` (graphs, metadata dialogs, the `basicvars` and
  `metadata` helpers) and the other client files are left out. So is
  Ember's observer machinery.

## Findings

| source | as written | input that shows it | evidently intended | confidence | as-written member | corrected member |
|---|---|---|---|---|---|---|
| src/mist/io/views.py:960-964 | after popping the default key, `keys()[0]` on the now-empty dictionary raises `IndexError`, which `except KeyError` does not catch; the request fails and the deletion is not saved by this request (the popped key stays popped in the shared settings until another handler saves them) | a store whose only key `k` is the default; `DELETE` of `k` | when no key remains there is nothing to promote: the deletion completes and is saved | high; not executed | Keys.DeleteSoleDefaultKeyRaises | Keys.DeleteAsIntendedCompletes |
| src/mist/io/static/js/app/views/machine.js:60 | `key.machines.forEach` runs on every listed key, but `list_keys` sends `machines: false` for a key that was never associated (views.py:769), so the helper throws a `TypeError` | add a key, reload the page so that the key list is fetched again from the server, then open a machine's view | a key without associations is associated with no machine and belongs to the rest | medium; not executed | MachineView.NewKeyBreaksKeyLists | MachineView.KeysPartition |

=== FILE: common.dfy ===
/** Shared value types: optional values, Python truthiness and the shapes
    the handlers pass around (association pairs and flat string dictionaries). */
module Common {

  datatype Option<+T> = None | Some(value: T)

  /** An association as the store keeps it: a JSON list, normally
      `[backend_id, machine_id]`. */
  type Association = seq<string>

  /** A provider dictionary of string values (tags, metadata), in its
      iteration order. */
  type Dict = seq<(string, string)>

  /** The libcloud provider constants the handlers test for by name; every
      other provider is known only by its code. Which providers are EC2
      regions comes from configuration and is passed around as a set. */
  datatype ProviderType = RackspaceFirstGen | Rackspace | Linode | OtherProvider(code: int)

  /** Python truthiness of an optional string: `None` and `''` are false. */
  predicate Truthy(o: Option<string>) {
    o.Some? && o.value != ""
  }

  /** Python truthiness of an optional dictionary: `None` and `{}` are false. */
  predicate TruthyDict(o: Option<Dict>) {
    o.Some? && o.value != []
  }

  /** Python `a or b` on optional strings. */
  function Or(a: Option<string>, b: Option<string>): Option<string> {
    if Truthy(a) then a else b
  }
}

=== FILE: keystore.dfy ===
/** The keypair and association store behind the key handlers of
    src/mist/io/views.py: a dictionary from key name to a record holding the
    public and private material, an optional `default` flag and an optional
    list of `[backend_id, machine_id]` associations.

    The store is given twice: as a value (`Store`) with one function per
    handler that says what the store and the reply are afterwards, and as the
    mutable dictionary itself (`KeyStore`), whose methods change it step by
    step as the handlers do and are proved to end in the state the function
    gives. */
module Keys {
  import opened Common

  /** The Python exceptions that escape a handler (an HTTP 500). */
  datatype PyError = KeyError | IndexError

  datatype Status = Done | NotFound | Raised(error: PyError)

  /** What a handler reports, and whether it reached its flush of the store
      to durable storage (`save_settings` / `save_keypairs`). */
  datatype Reply = Reply(status: Status, flushed: bool)

  /** One record of the store. `default` is absent, `True` or `False`;
      `machines` is absent until something associates the key. */
  datatype Keypair = Keypair(
    public: string,
    private: string,
    default: Option<bool>,
    machines: Option<seq<Association>>)

  /** `record.get('default', False)` is true. */
  predicate IsDefault(k: Keypair) {
    k.default == Some(true)
  }

  /** The dictionary as a value: its keys in iteration order, and the records. */
  datatype Store = Store(order: seq<string>, keypairs: map<string, Keypair>)

  /** The store after a handler, with the handler's reply. */
  datatype Step = Step(store: Store, reply: Reply)

  /** No element is listed twice. */
  predicate Distinct<T(==)>(s: seq<T>) {
    forall i, j :: 0 <= i < j < |s| ==> s[i] != s[j]
  }

  /** Every key is listed once in the iteration order, and only keys are. */
  ghost predicate WellFormed(s: Store) {
    Distinct(s.order) && forall k :: k in s.keypairs <==> k in s.order
  }

  /** `d` is the one key whose record is marked default. */
  predicate DefaultIs(s: Store, d: string) {
    d in s.keypairs && forall k :: k in s.keypairs ==> (IsDefault(s.keypairs[k]) <==> k == d)
  }

  predicate NoDefault(s: Store) {
    forall k :: k in s.keypairs ==> !IsDefault(s.keypairs[k])
  }

  /** The store invariant the key handlers aim at: a non-empty store has
      exactly one default key. */
  ghost predicate OneDefault(s: Store) {
    s.keypairs == map[] || exists d :: DefaultIs(s, d)
  }

  /** The invariant every handler keeps, from any store: no two keys are
      marked default. */
  ghost predicate AtMostOneDefault(s: Store) {
    forall a, b ::
      a in s.keypairs && b in s.keypairs && IsDefault(s.keypairs[a]) && IsDefault(s.keypairs[b]) ==> a == b
  }

  /** Two records with the same material and associations (the default flag
      may differ). */
  predicate SameMaterial(a: Keypair, b: Keypair) {
    a.public == b.public && a.private == b.private && a.machines == b.machines
  }

  // ---------------------------------------------------------------------
  // Sequence helpers

  /** The iteration order once `name` has been popped from the dictionary. */
  function Without(order: seq<string>, name: string): (r: seq<string>)
    ensures forall k :: k in r <==> k in order && k != name
  {
    if order == [] then []
    else (if order[0] == name then [] else [order[0]]) + Without(order[1..], name)
  }

  lemma {:induction false} WithoutDistinct(order: seq<string>, name: string)
    requires Distinct(order)
    ensures Distinct(Without(order, name))
  {
    if order != [] {
      assert Distinct(order[1..]);
      WithoutDistinct(order[1..], name);
      assert order[0] !in order[1..];
    }
  }

  lemma {:induction false} WithoutAbsent(order: seq<string>, name: string)
    requires name !in order
    ensures Without(order, name) == order
  {
    if order != [] {
      WithoutAbsent(order[1..], name);
    }
  }

  /** `list.remove(x)`: the list without the first element equal to `x`. */
  function RemoveFirst<T(==)>(s: seq<T>, x: T): (r: seq<T>)
    ensures x in s ==> |r| == |s| - 1
    ensures x !in s ==> r == s
  {
    if s == [] then []
    else if s[0] == x then s[1..] else [s[0]] + RemoveFirst(s[1..], x)
  }

  /** `list.remove(x)` takes away exactly one copy of `x`, when there is one. */
  lemma {:induction false} RemoveFirstCounts<T>(s: seq<T>, x: T)
    ensures multiset(RemoveFirst(s, x)) == multiset(s) - multiset{x}
  {
    if s != [] {
      assert s == [s[0]] + s[1..];
      if s[0] != x {
        RemoveFirstCounts(s[1..], x);
      }
    }
  }

  /** Removing the first occurrence, found at index `i`, keeps everything
      before and after it in order. */
  lemma RemoveFirstAt<T>(s: seq<T>, x: T, i: nat)
    requires i < |s| && s[i] == x && x !in s[..i]
    ensures RemoveFirst(s, x) == s[..i] + s[i + 1..]
  {
    assert s == s[..i] + [x] + s[i + 1..];
    RemoveFirstAfter(s[..i], x, s[i + 1..]);
  }

  lemma {:induction false} RemoveFirstAfter<T>(p: seq<T>, x: T, q: seq<T>)
    requires x !in p
    ensures RemoveFirst(p + [x] + q, x) == p + q
  {
    if p == [] {
      assert p + [x] + q == [x] + q;
      assert ([x] + q)[1..] == q;
    } else {
      var s := p + [x] + q;
      assert s[0] == p[0] != x;
      assert s[1..] == p[1..] + [x] + q;
      RemoveFirstAfter(p[1..], x, q);
      calc {
        RemoveFirst(s, x);
        [p[0]] + RemoveFirst(p[1..] + [x] + q, x);
        [p[0]] + (p[1..] + q);
        { assert p == [p[0]] + p[1..]; }
        p + q;
      }
    }
  }

  lemma RemoveFirstOfAppended<T>(s: seq<T>, x: T)
    requires x !in s
    ensures RemoveFirst(s + [x], x) == s
  {
    assert (s + [x])[..|s|] == s;
    RemoveFirstAt(s + [x], x, |s|);
    assert (s + [x])[|s| + 1..] == [];
  }

  /** The items of a bulk association that have at least two elements, in
      input order. */
  function KeepPairs(items: seq<Association>): (r: seq<Association>)
    ensures |r| <= |items|
    ensures forall i :: 0 <= i < |r| ==> |r[i]| >= 2
  {
    if items == [] then []
    else
      var last := items[|items| - 1];
      KeepPairs(items[..|items| - 1]) + (if |last| >= 2 then [last] else [])
  }

  /** Keeping pairs distributes over concatenation: what is kept of a list is
      kept item by item, in order. */
  lemma {:induction false} KeepPairsConcat(a: seq<Association>, b: seq<Association>)
    ensures KeepPairs(a + b) == KeepPairs(a) + KeepPairs(b)
  {
    if b == [] {
      assert a + b == a;
    } else {
      var b' := b[..|b| - 1];
      var last := b[|b| - 1];
      assert (a + b)[..|a + b| - 1] == a + b';
      assert (a + b)[|a + b| - 1] == last;
      KeepPairsConcat(a, b');
      assert KeepPairs(b) == KeepPairs(b') + (if |last| >= 2 then [last] else []);
    }
  }

  /** An item is kept exactly when it is in the input and has at least two
      elements. */
  lemma {:induction false} KeepPairsMembers(items: seq<Association>, x: Association)
    ensures x in KeepPairs(items) <==> x in items && |x| >= 2
  {
    if items != [] {
      var init := items[..|items| - 1];
      KeepPairsMembers(init, x);
      assert items == init + [items[|items| - 1]];
    }
  }

  // ---------------------------------------------------------------------
  // The handlers on the store as a value

  /** `add_key` (views.py:785-804): the record is built from the given
      material, marked default only when the store is empty, and stored
      under `name`, replacing any record of that name. */
  function Added(s: Store, name: string, pub: string, priv: string): (r: Step)
    requires WellFormed(s)
    ensures WellFormed(r.store)
    ensures r.reply == Reply(Done, true)
    ensures r.store.keypairs.Keys == s.keypairs.Keys + {name}
    ensures forall k :: k in s.keypairs && k != name ==> r.store.keypairs[k] == s.keypairs[k]
  {
    var key := Keypair(pub, priv, if |s.keypairs| == 0 then Some(true) else None, None);
    var order := if name in s.keypairs then s.order else s.order + [name];
    Step(Store(order, s.keypairs[name := key]), Reply(Done, true))
  }

  /** A record after the clearing loop of `set_default_key`. */
  function ClearDefault(k: Keypair): Keypair {
    if IsDefault(k) then k.(default := Some(false)) else k
  }

  /** `set_default_key` (views.py:808-822): every default flag is cleared,
      then `name` is marked default; a missing name raises `KeyError` only
      after the clearing. */
  function DefaultSet(s: Store, name: string): (r: Step)
    requires WellFormed(s)
    ensures WellFormed(r.store)
    ensures r.store.order == s.order && r.store.keypairs.Keys == s.keypairs.Keys
  {
    var cleared := map k | k in s.keypairs :: ClearDefault(s.keypairs[k]);
    if name in cleared then
      Step(Store(s.order, cleared[name := cleared[name].(default := Some(true))]), Reply(Done, true))
    else
      Step(Store(s.order, cleared), Reply(Raised(KeyError), false))
  }

  /** `delete_key` (views.py:952-967): pops `name` (`KeyError` when
      missing); when the popped record was the default, the first remaining
      key becomes default, and when none remains the `IndexError` of
      `keys()[0]` escapes the `except KeyError`. */
  function Deleted(s: Store, name: string): (r: Step)
    requires WellFormed(s)
    ensures WellFormed(r.store)
    ensures r.store.keypairs.Keys == s.keypairs.Keys - {name}
  {
    if name !in s.keypairs then Step(s, Reply(Raised(KeyError), false))
    else
      WithoutDistinct(s.order, name);
      var rest := Store(Without(s.order, name), s.keypairs - {name});
      if !IsDefault(s.keypairs[name]) then Step(rest, Reply(Done, true))
      else if rest.order == [] then Step(rest, Reply(Raised(IndexError), false))
      else
        var first := rest.order[0];
        Step(Store(rest.order, rest.keypairs[first := rest.keypairs[first].(default := Some(true))]),
             Reply(Done, true))
  }

  /** `delete_key` as its comment says it is meant to behave: when no key
      remains there is simply nothing to promote. */
  function DeletedAsIntended(s: Store, name: string): (r: Step)
    requires WellFormed(s)
    ensures WellFormed(r.store)
    ensures r.store.keypairs.Keys == s.keypairs.Keys - {name}
    ensures name in s.keypairs ==> r.reply == Reply(Done, true)
    ensures name !in s.keypairs ==> r == Step(s, Reply(Raised(KeyError), false))
  {
    var r := Deleted(s, name);
    if r.reply.status == Raised(IndexError) then Step(r.store, Reply(Done, true)) else r
  }

  /** `associate_key_to_machine` (views.py:866-893): appends
      `[backend_id, machine_id]` unless it is already listed; a record that
      has no `machines` field raises `KeyError`. */
  function Associated(s: Store, name: string, backendId: string, machineId: string): (r: Step)
    requires WellFormed(s)
    ensures WellFormed(r.store)
    ensures name !in s.keypairs ==> r == Step(s, Reply(NotFound, false))
    ensures r.store.order == s.order && r.store.keypairs.Keys == s.keypairs.Keys
    ensures forall k :: k in s.keypairs && k != name ==> r.store.keypairs[k] == s.keypairs[k]
    ensures forall k :: k in s.keypairs ==> r.store.keypairs[k].default == s.keypairs[k].default
  {
    if name !in s.keypairs then Step(s, Reply(NotFound, false))
    else
      var key := s.keypairs[name];
      if key.machines.None? then Step(s, Reply(Raised(KeyError), false))
      else
        var pair := [backendId, machineId];
        var machines := if pair in key.machines.value then key.machines.value else key.machines.value + [pair];
        Step(Store(s.order, s.keypairs[name := key.(machines := Some(machines))]), Reply(Done, true))
  }

  /** `associate_key_to_machines` (views.py:826-862): the record's list is
      replaced by the input items that have at least two elements. */
  function AssociatedAll(s: Store, name: string, items: seq<Association>): (r: Step)
    requires WellFormed(s)
    ensures WellFormed(r.store)
    ensures name !in s.keypairs ==> r == Step(s, Reply(NotFound, false))
    ensures name in s.keypairs ==> r.reply == Reply(Done, true)
    ensures r.store.order == s.order && r.store.keypairs.Keys == s.keypairs.Keys
    ensures forall k :: k in s.keypairs && k != name ==> r.store.keypairs[k] == s.keypairs[k]
    ensures forall k :: k in s.keypairs ==> r.store.keypairs[k].default == s.keypairs[k].default
  {
    if name !in s.keypairs then Step(s, Reply(NotFound, false))
    else
      Step(Store(s.order, s.keypairs[name := s.keypairs[name].(machines := Some(KeepPairs(items)))]),
           Reply(Done, true))
  }

  /** `disassociate_key_to_machine` (views.py:896-924): removes the first
      `[backend_id, machine_id]` and flushes; an absent pair changes and
      flushes nothing. */
  function Disassociated(s: Store, name: string, backendId: string, machineId: string): (r: Step)
    requires WellFormed(s)
    ensures WellFormed(r.store)
    ensures r.store.order == s.order && r.store.keypairs.Keys == s.keypairs.Keys
    ensures forall k :: k in s.keypairs && k != name ==> r.store.keypairs[k] == s.keypairs[k]
    ensures forall k :: k in s.keypairs ==> r.store.keypairs[k].default == s.keypairs[k].default
  {
    if name !in s.keypairs then Step(s, Reply(NotFound, false))
    else
      var key := s.keypairs[name];
      if key.machines.None? then Step(s, Reply(Raised(KeyError), false))
      else
        var pair := [backendId, machineId];
        if pair in key.machines.value then
          Step(Store(s.order, s.keypairs[name := key.(machines := Some(RemoveFirst(key.machines.value, pair)))]),
               Reply(Done, true))
        else Step(s, Reply(Done, false))
  }

  function OrEmpty(o: Option<seq<Association>>): seq<Association> {
    if o.Some? then o.value else []
  }

  /** The bookkeeping of `create_machine` after a node was created with
      keypair `name` (views.py:304-309): `[backend_id, node.id]` is added
      at the end of the list, with no duplicate check. */
  function Recorded(s: Store, name: string, backendId: string, nodeId: string): (r: Store)
    requires WellFormed(s) && name in s.keypairs
    ensures WellFormed(r)
    ensures r.order == s.order && r.keypairs.Keys == s.keypairs.Keys
    ensures forall k :: k in s.keypairs && k != name ==> r.keypairs[k] == s.keypairs[k]
    ensures r.keypairs[name].machines == Some(OrEmpty(s.keypairs[name].machines) + [[backendId, nodeId]])
    ensures r.keypairs[name].public == s.keypairs[name].public
    ensures r.keypairs[name].private == s.keypairs[name].private
    ensures r.keypairs[name].default == s.keypairs[name].default
  {
    var key := s.keypairs[name];
    var machines := key.machines;
    var updated :=
      if machines.Some? && |machines.value| > 0 then machines.value + [[backendId, nodeId]]
      else [[backendId, nodeId]];
    assert OrEmpty(machines) == [] ==> updated == OrEmpty(machines) + [[backendId, nodeId]];
    Store(s.order, s.keypairs[name := key.(machines := Some(updated))])
  }

  /** One entry of `list_keys`: everything but the private material. */
  datatype KeyView = KeyView(name: string, machines: Option<seq<Association>>, pub: string, defaultKey: bool)

  function ViewOf(name: string, k: Keypair): KeyView {
    KeyView(name, k.machines, k.public, IsDefault(k))
  }

  function Views(order: seq<string>, keypairs: map<string, Keypair>): (r: seq<KeyView>)
    requires forall k :: k in order ==> k in keypairs
    ensures |r| == |order|
    ensures forall i :: 0 <= i < |r| ==> r[i] == ViewOf(order[i], keypairs[order[i]])
  {
    if order == [] then [] else [ViewOf(order[0], keypairs[order[0]])] + Views(order[1..], keypairs)
  }

  /** `list_keys` (views.py:756-773): one public view per key, in the
      store's order. */
  function ListKeys(s: Store): (r: seq<KeyView>)
    requires WellFormed(s)
    ensures |r| == |s.keypairs|
    ensures forall i :: 0 <= i < |r| ==> r[i].name in s.keypairs && r[i] == ViewOf(r[i].name, s.keypairs[r[i].name])
    ensures forall k :: k in s.keypairs ==> exists i :: 0 <= i < |r| && r[i].name == k
    ensures forall i, j :: 0 <= i < j < |r| ==> r[i].name != r[j].name
  {
    DistinctCardinality(s);
    Views(s.order, s.keypairs)
  }

  lemma DistinctCardinality(s: Store)
    requires WellFormed(s)
    ensures |s.keypairs| == |s.order|
  {
    DistinctSetSize(s.order);
    assert s.keypairs.Keys == set k | k in s.order;
  }

  lemma {:induction false} DistinctSetSize(order: seq<string>)
    requires Distinct(order)
    ensures |set k | k in order| == |order|
  {
    if order != [] {
      var tail := order[1..];
      assert Distinct(tail);
      DistinctSetSize(tail);
      assert (set k | k in order) == (set k | k in tail) + {order[0]};
      assert order[0] !in tail;
    }
  }

  /** `get_private_key` (views.py:928-949). */
  function GetPrivateKey(s: Store, name: string): (r: Option<string>)
    ensures r.Some? <==> name in s.keypairs
    ensures r.Some? ==> r.value == s.keypairs[name].private
  {
    if name in s.keypairs then Some(s.keypairs[name].private) else None
  }

  // ---------------------------------------------------------------------
  // The mutable store

  /** A dictionary whose every key, visited in `order`, was cleared is the
      cleared dictionary. */
  lemma ClearedEverywhere(order: seq<string>, before: map<string, Keypair>, after: map<string, Keypair>)
    requires forall k :: k in before <==> k in order
    requires after.Keys == before.Keys
    requires forall j :: 0 <= j < |order| ==> after[order[j]] == ClearDefault(before[order[j]])
    ensures after == map k | k in before :: ClearDefault(before[k])
  {
    forall k | k in after
      ensures after[k] == ClearDefault(before[k])
    {
      var j :| 0 <= j < |order| && order[j] == k;
    }
  }

  /** `request.registry.settings['keypairs']`, changed in place by the
      handlers. */
  class KeyStore {
    var order: seq<string>
    var keypairs: map<string, Keypair>

    function Value(): Store
      reads this
    {
      Store(order, keypairs)
    }

    ghost predicate Valid()
      reads this
    {
      WellFormed(Value())
    }

    constructor ()
      ensures Valid() && Value() == Store([], map[])
    {
      order := [];
      keypairs := map[];
    }

    /** `add_key`; `defaultKey` is the `default_key` field of the reply. */
    method AddKey(name: string, pub: string, priv: string) returns (reply: Reply, defaultKey: bool)
      requires Valid()
      modifies this
      ensures Valid() && Step(Value(), reply) == Added(old(Value()), name, pub, priv)
      ensures defaultKey == (old(keypairs) == map[])
    {
      var key := Keypair(pub, priv, None, None);
      if |keypairs| == 0 {
        key := key.(default := Some(true));
      }
      if name !in keypairs {
        order := order + [name];
      }
      keypairs := keypairs[name := key];
      reply := Reply(Done, true);
      defaultKey := key.default == Some(true);
    }

    /** `set_default_key`: the loop clears every default, then `name` is set. */
    method SetDefaultKey(name: string) returns (reply: Reply)
      requires Valid()
      modifies this
      ensures Valid() && Step(Value(), reply) == DefaultSet(old(Value()), name)
    {
      ClearDefaults();
      if name in keypairs {
        keypairs := keypairs[name := keypairs[name].(default := Some(true))];
        reply := Reply(Done, true);
      } else {
        reply := Reply(Raised(KeyError), false);
      }
    }

    /** The clearing loop of `set_default_key`, over the keys in order. */
    method ClearDefaults()
      requires Valid()
      modifies this
      ensures Valid() && order == old(order)
      ensures keypairs == map k | k in old(keypairs) :: ClearDefault(old(keypairs)[k])
    {
      var i := 0;
      while i < |order|
        invariant 0 <= i <= |order|
        invariant order == old(order) && Distinct(order)
        invariant keypairs.Keys == old(keypairs).Keys
        invariant forall j :: 0 <= j < i ==> keypairs[order[j]] == ClearDefault(old(keypairs)[order[j]])
        invariant forall j :: i <= j < |order| ==> keypairs[order[j]] == old(keypairs)[order[j]]
      {
        var key := order[i];
        if IsDefault(keypairs[key]) {
          keypairs := keypairs[key := keypairs[key].(default := Some(false))];
        }
        i := i + 1;
      }
      ClearedEverywhere(order, old(keypairs), keypairs);
    }

    /** `delete_key`. */
    method DeleteKey(name: string) returns (reply: Reply)
      requires Valid()
      modifies this
      ensures Valid() && Step(Value(), reply) == Deleted(old(Value()), name)
    {
      if name !in keypairs {
        return Reply(Raised(KeyError), false);
      }
      var key := keypairs[name];
      WithoutDistinct(order, name);
      keypairs := keypairs - {name};
      order := Without(order, name);
      if IsDefault(key) {
        if order == [] {
          return Reply(Raised(IndexError), false);
        }
        var first := order[0];
        keypairs := keypairs[first := keypairs[first].(default := Some(true))];
      }
      reply := Reply(Done, true);
    }

    /** `associate_key_to_machine`. */
    method AssociateKeyToMachine(name: string, backendId: string, machineId: string) returns (reply: Reply)
      requires Valid()
      modifies this
      ensures Valid() && Step(Value(), reply) == Associated(old(Value()), name, backendId, machineId)
    {
      if name !in keypairs {
        return Reply(NotFound, false);
      }
      var key := keypairs[name];
      if key.machines.None? {
        return Reply(Raised(KeyError), false);
      }
      var pair := [backendId, machineId];
      if pair !in key.machines.value {
        keypairs := keypairs[name := key.(machines := Some(key.machines.value + [pair]))];
      } else {
        assert keypairs[name := key.(machines := Some(key.machines.value))] == keypairs;
      }
      reply := Reply(Done, true);
    }

    /** `associate_key_to_machines`: the list is emptied, then every item
      that has at least two elements is appended. */
    method AssociateKeyToMachines(name: string, items: seq<Association>) returns (reply: Reply)
      requires Valid()
      modifies this
      ensures Valid() && Step(Value(), reply) == AssociatedAll(old(Value()), name, items)
    {
      if name !in keypairs {
        return Reply(NotFound, false);
      }
      var key := keypairs[name];
      keypairs := keypairs[name := key.(machines := Some([]))];
      var i := 0;
      while i < |items|
        invariant 0 <= i <= |items|
        invariant order == old(order)
        invariant keypairs == old(keypairs)[name := key.(machines := Some(KeepPairs(items[..i])))]
      {
        var kept := keypairs[name].machines.value;
        assert items[..i + 1][..i] == items[..i];
        assert KeepPairs(items[..i + 1]) == kept + (if |items[i]| >= 2 then [items[i]] else []);
        if |items[i]| >= 2 {
          keypairs := keypairs[name := key.(machines := Some(kept + [items[i]]))];
        } else {
          assert kept + [] == kept;
        }
        i := i + 1;
      }
      assert items[..|items|] == items;
      reply := Reply(Done, true);
    }

    /** `disassociate_key_to_machine`: the loop stops at the first matching
      pair and removes it. */
    method DisassociateKeyToMachine(name: string, backendId: string, machineId: string) returns (reply: Reply)
      requires Valid()
      modifies this
      ensures Valid() && Step(Value(), reply) == Disassociated(old(Value()), name, backendId, machineId)
    {
      if name !in keypairs {
        return Reply(NotFound, false);
      }
      var key := keypairs[name];
      if key.machines.None? {
        return Reply(Raised(KeyError), false);
      }
      var machines := key.machines.value;
      var pair := [backendId, machineId];
      var i := 0;
      while i < |machines|
        invariant 0 <= i <= |machines|
        invariant pair !in machines[..i]
      {
        if machines[i] == pair {
          RemoveFirstAt(machines, pair, i);
          keypairs := keypairs[name := key.(machines := Some(machines[..i] + machines[i + 1..]))];
          return Reply(Done, true);
        }
        assert machines[..i + 1] == machines[..i] + [machines[i]];
        i := i + 1;
      }
      assert machines[..|machines|] == machines;
      reply := Reply(Done, false);
    }

    /** The association bookkeeping of `create_machine`. */
    method RecordMachine(name: string, backendId: string, nodeId: string)
      requires Valid() && name in keypairs
      modifies this
      ensures Valid() && Value() == Recorded(old(Value()), name, backendId, nodeId)
    {
      var key := keypairs[name];
      var machines := key.machines;
      if machines.Some? && |machines.value| > 0 {
        keypairs := keypairs[name := key.(machines := Some(machines.value + [[backendId, nodeId]]))];
      } else {
        keypairs := keypairs[name := key.(machines := Some([[backendId, nodeId]]))];
      }
    }
  }

  // ---------------------------------------------------------------------
  // Properties of the handlers

  /** The first key added to an empty store is its default. */
  lemma AddKeyToEmptyStore(s: Store, name: string, pub: string, priv: string)
    requires WellFormed(s) && s.keypairs == map[]
    ensures DefaultIs(Added(s, name, pub, priv).store, name)
  {
  }

  /** In a non-empty store the new record has no default flag and no
      associations, whatever record of that name it replaces. */
  lemma AddKeyToNonEmptyStore(s: Store, name: string, pub: string, priv: string)
    requires WellFormed(s) && s.keypairs != map[]
    ensures var r := Added(s, name, pub, priv).store;
      r.keypairs[name] == Keypair(pub, priv, None, None) && !IsDefault(r.keypairs[name])
  {
  }

  /** Adding a new name, or replacing a key that is not the default, keeps a
      single default. */
  lemma AddKeyKeepsOneDefault(s: Store, name: string, pub: string, priv: string)
    requires WellFormed(s) && OneDefault(s)
    requires name !in s.keypairs || !IsDefault(s.keypairs[name])
    ensures OneDefault(Added(s, name, pub, priv).store)
  {
    if s.keypairs == map[] {
      AddKeyToEmptyStore(s, name, pub, priv);
    } else {
      var d :| DefaultIs(s, d);
      AddKeyKeepsDefault(s, name, pub, priv, d);
    }
  }

  /** A key added under another name than the default's leaves that key
      the only default. */
  lemma AddKeyKeepsDefault(s: Store, name: string, pub: string, priv: string, d: string)
    requires WellFormed(s) && DefaultIs(s, d) && name != d
    ensures DefaultIs(Added(s, name, pub, priv).store, d)
  {
    AddKeyToNonEmptyStore(s, name, pub, priv);
  }

  /** Replacing the default key of a store leaves the store without any
      default, since the new record is not marked. */
  lemma AddKeyOverDefaultLosesDefault(s: Store, name: string, pub: string, priv: string)
    requires WellFormed(s) && DefaultIs(s, name)
    ensures var r := Added(s, name, pub, priv).store;
      r.keypairs != map[] && NoDefault(r)
  {
  }

  /** After `set_default_key` on a present name exactly that key is default;
      no key loses or gains material or associations, and keys that were
      not default keep their flag as it was. */
  lemma SetDefaultKeyMakesOnlyDefault(s: Store, name: string)
    requires WellFormed(s) && name in s.keypairs
    ensures var r := DefaultSet(s, name);
      && r.reply == Reply(Done, true)
      && DefaultIs(r.store, name)
      && (forall k :: k in s.keypairs ==> SameMaterial(r.store.keypairs[k], s.keypairs[k]))
      && (forall k :: k in s.keypairs && k != name && !IsDefault(s.keypairs[k]) ==>
            r.store.keypairs[k] == s.keypairs[k])
  {
  }

  /** On a missing name the clearing has already happened when `KeyError`
      escapes: no key is default and nothing is flushed. */
  lemma SetDefaultKeyOnMissingName(s: Store, name: string)
    requires WellFormed(s) && name !in s.keypairs
    ensures var r := DefaultSet(s, name);
      && r.reply == Reply(Raised(KeyError), false)
      && NoDefault(r.store)
      && (forall k :: k in s.keypairs ==> SameMaterial(r.store.keypairs[k], s.keypairs[k]))
  {
  }

  /** Deleting a missing name raises `KeyError` and changes nothing. */
  lemma DeleteMissingKey(s: Store, name: string)
    requires WellFormed(s) && name !in s.keypairs
    ensures Deleted(s, name) == Step(s, Reply(Raised(KeyError), false))
  {
  }

  /** Deleting a key that is not the default removes exactly that name and
      leaves every other record as it was. */
  lemma DeleteNonDefaultKey(s: Store, name: string)
    requires WellFormed(s) && name in s.keypairs && !IsDefault(s.keypairs[name])
    ensures var r := Deleted(s, name);
      && r.reply == Reply(Done, true)
      && r.store.keypairs == s.keypairs - {name}
  {
  }

  /** Deleting the only default key while other keys remain makes the first
      remaining key, in the store's order, the only default; every other
      record is unchanged. */
  lemma DeleteDefaultKeyPromotesFirst(s: Store, name: string)
    requires WellFormed(s) && DefaultIs(s, name) && |s.order| >= 2
    ensures var first := if s.order[0] != name then s.order[0] else s.order[1];
      var r := Deleted(s, name);
      && r.reply == Reply(Done, true)
      && DefaultIs(r.store, first)
      && SameMaterial(r.store.keypairs[first], s.keypairs[first])
      && (forall k :: k in r.store.keypairs && k != first ==> r.store.keypairs[k] == s.keypairs[k])
  {
    var first := if s.order[0] != name then s.order[0] else s.order[1];
    FirstRemaining(s.order, name);
    var left := s.keypairs - {name};
    var after := left[first := left[first].(default := Some(true))];
    assert Deleted(s, name) == Step(Store(Without(s.order, name), after), Reply(Done, true));
    assert first in left;
    PromotedIsOnlyDefault(left, first, Without(s.order, name));
  }

  /** Marking one key of a store without defaults makes it the only one. */
  lemma PromotedIsOnlyDefault(left: map<string, Keypair>, first: string, order: seq<string>)
    requires first in left && forall k :: k in left ==> !IsDefault(left[k])
    ensures DefaultIs(Store(order, left[first := left[first].(default := Some(true))]), first)
  {
  }

  /** The key promoted by `delete_key` is the first key other than the one
      deleted. */
  lemma FirstRemaining(order: seq<string>, name: string)
    requires Distinct(order) && name in order && |order| >= 2
    ensures var rest := Without(order, name);
      rest != [] && rest[0] == (if order[0] != name then order[0] else order[1])
  {
    if order[0] == name {
      assert name !in order[1..];
      WithoutAbsent(order[1..], name);
    }
  }

  /** `delete_key` keeps the single-default invariant, including on the
      path where `IndexError` escapes (the store is then empty). */
  lemma DeleteKeyKeepsOneDefault(s: Store, name: string)
    requires WellFormed(s) && OneDefault(s)
    ensures OneDefault(Deleted(s, name).store)
  {
    if name in s.keypairs {
      var d :| DefaultIs(s, d);
      if d != name {
        DeleteNonDefaultKey(s, name);
        assert DefaultIs(Deleted(s, name).store, d);
      } else if |s.order| >= 2 {
        DeleteDefaultKeyPromotesFirst(s, name);
      } else {
        assert s.order == [name];
        assert Deleted(s, name).store.keypairs.Keys == {};
      }
    }
  }

  /** Deleting the only key of a store, when it is the default, removes it
      but ends in an escaped `IndexError` and no flush. */
  lemma DeleteSoleDefaultKeyRaises(s: Store, name: string)
    requires WellFormed(s) && s.keypairs.Keys == {name} && IsDefault(s.keypairs[name])
    ensures Deleted(s, name) == Step(Store([], map[]), Reply(Raised(IndexError), false))
  {
    DistinctCardinality(s);
    assert |s.order| == 1 by {
      assert |s.keypairs.Keys| == 1;
    }
    assert s.order == [name] by {
      assert s.order[0] in s.keypairs;
    }
    assert Without([name], name) == [] by {
      assert [name][1..] == [];
    }
    assert s.keypairs - {name} == map[];
  }

  /** With the intended handling every deletion of a present key completes
      and is flushed, and the single-default invariant holds afterwards. */
  lemma DeleteAsIntendedCompletes(s: Store, name: string)
    requires WellFormed(s) && OneDefault(s) && name in s.keypairs
    ensures var r := DeletedAsIntended(s, name);
      r.reply == Reply(Done, true) && OneDefault(r.store) && name !in r.store.keypairs
  {
    DeleteKeyKeepsOneDefault(s, name);
  }

  /** A second identical `associate_key_to_machine` changes nothing. */
  lemma AssociateIsIdempotent(s: Store, name: string, backendId: string, machineId: string)
    requires WellFormed(s)
    ensures var once := Associated(s, name, backendId, machineId).store;
      Associated(once, name, backendId, machineId).store == once
  {
    var once := Associated(s, name, backendId, machineId).store;
    if name in once.keypairs && once.keypairs[name].machines.Some? {
      var key := once.keypairs[name];
      assert once.keypairs[name := key.(machines := Some(key.machines.value))] == once.keypairs;
    }
  }

  /** After `associate_key_to_machine` the pair is listed, the old list is
      a prefix of the new one, and a list without duplicates stays so. */
  lemma AssociateListsPairOnce(s: Store, name: string, backendId: string, machineId: string)
    requires WellFormed(s) && name in s.keypairs && s.keypairs[name].machines.Some?
    ensures var before := s.keypairs[name].machines.value;
      var r := Associated(s, name, backendId, machineId);
      var after := r.store.keypairs[name].machines.value;
      && r.reply == Reply(Done, true)
      && after == (if [backendId, machineId] in before then before else before + [[backendId, machineId]])
      && [backendId, machineId] in after
      && |after| <= |before| + 1
      && after[..|before|] == before
      && (Distinct(before) ==> Distinct(after))
  {
  }

  /** A key made by `add_key` has no `machines` field, so associating or
      disassociating it raises `KeyError` and changes nothing. */
  lemma AssociateNewKeyRaises(s: Store, name: string, pub: string, priv: string,
                              backendId: string, machineId: string)
    requires WellFormed(s)
    ensures var a := Added(s, name, pub, priv).store;
      && Associated(a, name, backendId, machineId) == Step(a, Reply(Raised(KeyError), false))
      && Disassociated(a, name, backendId, machineId) == Step(a, Reply(Raised(KeyError), false))
  {
  }

  /** Associating a pair that was not listed and then disassociating it
      gives back the store it started from. */
  lemma AssociateThenDisassociate(s: Store, name: string, backendId: string, machineId: string)
    requires WellFormed(s) && name in s.keypairs && s.keypairs[name].machines.Some?
    requires [backendId, machineId] !in s.keypairs[name].machines.value
    ensures var once := Associated(s, name, backendId, machineId).store;
      Disassociated(once, name, backendId, machineId) == Step(s, Reply(Done, true))
  {
    var key := s.keypairs[name];
    var pair := [backendId, machineId];
    RemoveFirstOfAppended(key.machines.value, pair);
    assert s.keypairs[name := key.(machines := Some(key.machines.value))] == s.keypairs;
  }

  /** Disassociating removes the first occurrence of the pair and keeps the
      rest of the list in order. */
  lemma DisassociateRemovesFirst(s: Store, name: string, backendId: string, machineId: string, i: nat)
    requires WellFormed(s) && name in s.keypairs && s.keypairs[name].machines.Some?
    requires var ms := s.keypairs[name].machines.value;
      i < |ms| && ms[i] == [backendId, machineId] && [backendId, machineId] !in ms[..i]
    ensures var ms := s.keypairs[name].machines.value;
      var r := Disassociated(s, name, backendId, machineId);
      && r.reply == Reply(Done, true)
      && r.store.keypairs[name] == s.keypairs[name].(machines := Some(ms[..i] + ms[i + 1..]))
  {
    RemoveFirstAt(s.keypairs[name].machines.value, [backendId, machineId], i);
  }

  /** Disassociating an absent pair changes and flushes nothing; an unknown
      key name is reported as not found. */
  lemma DisassociateAbsentPair(s: Store, name: string, backendId: string, machineId: string)
    requires WellFormed(s)
    requires name in s.keypairs ==>
      s.keypairs[name].machines.Some? && [backendId, machineId] !in s.keypairs[name].machines.value
    ensures var r := Disassociated(s, name, backendId, machineId);
      r.store == s && !r.reply.flushed
      && (r.reply.status == NotFound <==> name !in s.keypairs)
  {
  }

  /** Bulk association: the list becomes exactly the items with at least two
      elements, in input order, whatever it was before. */
  lemma AssociateKeyToMachinesReplaces(s: Store, name: string, items: seq<Association>, more: seq<Association>)
    requires WellFormed(s) && name in s.keypairs
    ensures var r := AssociatedAll(s, name, items + more).store;
      var after := r.keypairs[name].machines.value;
      && after == KeepPairs(items) + KeepPairs(more)
      && (forall x :: x in after <==> (x in items || x in more) && |x| >= 2)
      && SameMaterial(r.keypairs[name].(machines := s.keypairs[name].machines), s.keypairs[name])
  {
    KeepPairsConcat(items, more);
    forall x
      ensures x in KeepPairs(items + more) <==> (x in items || x in more) && |x| >= 2
    {
      KeepPairsMembers(items + more, x);
    }
  }

  /** Recording a created machine adds exactly one entry: the list grows by
      one and the new pair is counted once more than before, even when it
      was already listed. */
  lemma RecordMachineAddsOneEntry(s: Store, name: string, backendId: string, nodeId: string)
    requires WellFormed(s) && name in s.keypairs
    ensures var before := OrEmpty(s.keypairs[name].machines);
      var after := Recorded(s, name, backendId, nodeId).keypairs[name].machines.value;
      && |after| == |before| + 1
      && multiset(after) == multiset(before) + multiset{[backendId, nodeId]}
      && after[..|before|] == before
  {
    var before := OrEmpty(s.keypairs[name].machines);
    var after := Recorded(s, name, backendId, nodeId).keypairs[name].machines.value;
    assert after == before + [[backendId, nodeId]];
    assert after[..|before|] == before;
  }

  /** The association handlers never touch default flags, so they keep the
      single-default invariant. */
  lemma AssociationsKeepOneDefault(s: Store, name: string, backendId: string, machineId: string, items: seq<Association>)
    requires WellFormed(s) && OneDefault(s)
    ensures OneDefault(Associated(s, name, backendId, machineId).store)
    ensures OneDefault(AssociatedAll(s, name, items).store)
    ensures OneDefault(Disassociated(s, name, backendId, machineId).store)
    ensures name in s.keypairs ==> OneDefault(Recorded(s, name, backendId, machineId))
  {
    if s.keypairs != map[] {
      var d :| DefaultIs(s, d);
      assert DefaultIs(Associated(s, name, backendId, machineId).store, d);
      assert DefaultIs(AssociatedAll(s, name, items).store, d);
      assert DefaultIs(Disassociated(s, name, backendId, machineId).store, d);
      if name in s.keypairs {
        assert DefaultIs(Recorded(s, name, backendId, machineId), d);
      }
    }
  }

  // ---------------------------------------------------------------------
  // The store invariant: at most one default key, from any store

  /** A store with exactly one default, and the empty store, has at most one. */
  lemma OneDefaultIsAtMostOne(s: Store)
    requires OneDefault(s)
    ensures AtMostOneDefault(s)
  {
  }

  /** `add_key` marks the new key default only in an empty store. */
  lemma AddKeyKeepsAtMostOneDefault(s: Store, name: string, pub: string, priv: string)
    requires WellFormed(s) && AtMostOneDefault(s)
    ensures AtMostOneDefault(Added(s, name, pub, priv).store)
  {
  }

  /** `set_default_key` clears every flag before setting one, so it leaves
      at most one default even from a store with several. */
  lemma SetDefaultKeyLeavesAtMostOneDefault(s: Store, name: string)
    requires WellFormed(s)
    ensures AtMostOneDefault(DefaultSet(s, name).store)
  {
  }

  /** `delete_key` promotes a key only after popping the default one. */
  lemma DeleteKeyKeepsAtMostOneDefault(s: Store, name: string)
    requires WellFormed(s) && AtMostOneDefault(s)
    ensures AtMostOneDefault(Deleted(s, name).store)
  {
  }

  /** `associate_key_to_machine` changes no default flag. */
  lemma AssociateKeepsAtMostOneDefault(s: Store, name: string, backendId: string, machineId: string)
    requires WellFormed(s) && AtMostOneDefault(s)
    ensures AtMostOneDefault(Associated(s, name, backendId, machineId).store)
  {
    SameFlagsKeepAtMostOneDefault(s, Associated(s, name, backendId, machineId).store);
  }

  /** `associate_key_to_machines` changes no default flag. */
  lemma AssociateAllKeepsAtMostOneDefault(s: Store, name: string, items: seq<Association>)
    requires WellFormed(s) && AtMostOneDefault(s)
    ensures AtMostOneDefault(AssociatedAll(s, name, items).store)
  {
    SameFlagsKeepAtMostOneDefault(s, AssociatedAll(s, name, items).store);
  }

  /** `disassociate_key_to_machine` changes no default flag. */
  lemma DisassociateKeepsAtMostOneDefault(s: Store, name: string, backendId: string, machineId: string)
    requires WellFormed(s) && AtMostOneDefault(s)
    ensures AtMostOneDefault(Disassociated(s, name, backendId, machineId).store)
  {
    SameFlagsKeepAtMostOneDefault(s, Disassociated(s, name, backendId, machineId).store);
  }

  /** The bookkeeping of `create_machine` changes no default flag. */
  lemma RecordKeepsAtMostOneDefault(s: Store, name: string, backendId: string, nodeId: string)
    requires WellFormed(s) && name in s.keypairs && AtMostOneDefault(s)
    ensures AtMostOneDefault(Recorded(s, name, backendId, nodeId))
  {
    SameFlagsKeepAtMostOneDefault(s, Recorded(s, name, backendId, nodeId));
  }

  /** A store with the same keys and the same default flags keeps the invariant. */
  lemma SameFlagsKeepAtMostOneDefault(s: Store, t: Store)
    requires AtMostOneDefault(s) && t.keypairs.Keys == s.keypairs.Keys
    requires forall k :: k in s.keypairs ==> t.keypairs[k].default == s.keypairs[k].default
    ensures AtMostOneDefault(t)
  {
    forall a, b | a in t.keypairs && b in t.keypairs && IsDefault(t.keypairs[a]) && IsDefault(t.keypairs[b])
      ensures a == b
    {
      assert IsDefault(s.keypairs[a]) && IsDefault(s.keypairs[b]);
    }
  }

  /** `list_keys` flags exactly the default key, and lists it once. */
  lemma ListKeysFlagsTheDefault(s: Store, d: string)
    requires WellFormed(s) && DefaultIs(s, d)
    ensures var r := ListKeys(s);
      && (forall i :: 0 <= i < |r| ==> (r[i].defaultKey <==> r[i].name == d))
      && (exists i :: 0 <= i < |r| && r[i].name == d)
  {
    var r := ListKeys(s);
    forall i | 0 <= i < |r|
      ensures r[i].defaultKey <==> r[i].name == d
    {
      assert r[i] == ViewOf(r[i].name, s.keypairs[r[i].name]);
    }
    assert d in s.keypairs;
  }

  /** The private material given to `add_key` is what `get_private_key`
      returns for that name. */
  lemma PrivateKeyRoundTrip(s: Store, name: string, pub: string, priv: string)
    requires WellFormed(s)
    ensures GetPrivateKey(Added(s, name, pub, priv).store, name) == Some(priv)
  {
  }
}

=== FILE: machineview.dfy ===
/** The helpers of the machine page (`app/views/machine`): the CSS classes
    that disable its buttons, the displayed name, the uptime text and the
    two key lists (keys associated with the machine, and the rest).

    The page's machine is `Mist.machine`, absent (`None`) before one is
    chosen. Keys are the records the key list loads from the server, as the
    key listing returns them. */
module MachineView {
  import opened Common
  import opened Text
  import opened Keys

  /** The fields of `Mist.machine` the helpers read. An absent uptime reads
      as 0, which JavaScript treats as false just as it does `undefined`. */
  datatype ViewMachine = ViewMachine(
    id: string, name: string, state: string, hasKey: bool, canTag: bool, uptime: int)

  // ---------------------------------------------------------------------
  // Button classes and name

  /** The shell button works only for a running machine with a key. */
  function DisabledShellClass(machine: Option<ViewMachine>): (r: string)
    ensures r == "" || r == "ui-disabled"
    ensures r == "" <==> machine.Some? && machine.value.hasKey && machine.value.state == "running"
  {
    if machine.Some? && machine.value.hasKey && machine.value.state == "running" then ""
    else "ui-disabled"
  }

  /** The tag button works only when the machine can be tagged. */
  function DisabledTagClass(machine: Option<ViewMachine>): (r: string)
    ensures r == "" || r == "ui-disabled"
    ensures r == "" <==> machine.Some? && machine.value.canTag
  {
    if machine.Some? && machine.value.canTag then "" else "ui-disabled"
  }

  /** The power buttons are disabled only for a terminated machine. */
  function DisabledPowerClass(machine: Option<ViewMachine>): (r: string)
    ensures r == "" || r == "ui-disabled"
    ensures r == "ui-disabled" <==> machine.Some? && machine.value.state == "terminated"
  {
    if machine.Some? && machine.value.state == "terminated" then "ui-disabled" else ""
  }

  /** Whenever the shell is usable, so are the power buttons; with no
      machine chosen the shell is disabled and the power buttons are not. */
  lemma ShellEnabledImpliesPowerEnabled(machine: Option<ViewMachine>)
    ensures DisabledShellClass(machine) == "" ==> DisabledPowerClass(machine) == ""
    ensures machine.None? ==> DisabledShellClass(machine) == "ui-disabled" && DisabledPowerClass(machine) == ""
  {
  }

  /** The displayed name: the machine's name, else its id. */
  function Name(machine: Option<ViewMachine>): (r: string)
    ensures machine.None? ==> r == ""
    ensures machine.Some? ==> r == (if machine.value.name != "" then machine.value.name else machine.value.id)
  {
    if machine.None? then "" else if machine.value.name != "" then machine.value.name else machine.value.id
  }

  // ---------------------------------------------------------------------
  // Uptime

  /** JavaScript's `%` for a positive divisor: the remainder has the sign
      of the dividend. (`Math.floor(x / n)` is Dafny's `x / n` for n > 0.) */
  function JsRem(a: int, n: int): (r: int)
    requires n > 0
    ensures a >= 0 ==> r == a % n
    ensures a < 0 ==> r == -((-a) % n)
    ensures -n < r < n
  {
    if a >= 0 then a % n else -((-a) % n)
  }

  datatype Uptime = Uptime(days: int, hours: int, minutes: int, seconds: int)

  /** The components `upFor` computes from an uptime in milliseconds. */
  function Breakdown(uptime: int): (p: Uptime)
    ensures uptime >= 0 ==>
      && p.days >= 0 && 0 <= p.hours < 24 && 0 <= p.minutes < 60 && 0 <= p.seconds < 60
      && p.days * 86400 + p.hours * 3600 + p.minutes * 60 + p.seconds == uptime / 1000
  {
    var x := uptime / 1000;
    Uptime(x / 60 / 60 / 24, JsRem(x / 60 / 60, 24), JsRem(x / 60, 60), JsRem(x, 60))
  }

  /** A negative uptime gives `-1` in every unit, whose sum is not the
      uptime: the identity of `Breakdown` holds only from zero up. */
  lemma NegativeUptimeBreakdown()
    ensures Breakdown(-1000) == Uptime(-1, -1, -1, -1)
    ensures var p := Breakdown(-1000);
      p.days * 86400 + p.hours * 3600 + p.minutes * 60 + p.seconds != -1000 / 1000
  {
  }

  /** One component of the text, left out when zero. */
  function Part(n: int, unit: string): string {
    if n != 0 then IntToString(n) + unit else ""
  }

  /** The uptime text: zero days, hours and minutes are left out; the
      seconds are always there. */
  function UptimeText(p: Uptime): (r: string)
    ensures |r| >= |" seconds"| && r[|r| - |" seconds"|..] == " seconds"
  {
    Part(p.days, " days, ") + Part(p.hours, " hours, ") + Part(p.minutes, " minutes, ")
      + IntToString(p.seconds) + " seconds"
  }

  /** `upFor`. */
  method UpFor(machine: Option<ViewMachine>) returns (ret: string)
    ensures ret == "" <==> machine.None? || machine.value.uptime == 0
    ensures machine.Some? && machine.value.uptime != 0 ==> ret == UptimeText(Breakdown(machine.value.uptime))
  {
    if machine.Some? && machine.value.uptime != 0 {
      ret := "";
      var x := machine.value.uptime / 1000;
      var seconds := JsRem(x, 60);
      x := x / 60;
      var minutes := JsRem(x, 60);
      x := x / 60;
      var hours := JsRem(x, 24);
      x := x / 24;
      var days := x;
      assert Breakdown(machine.value.uptime) == Uptime(days, hours, minutes, seconds);
      if days != 0 {
        ret := ret + IntToString(days) + " days, ";
      }
      assert ret == Part(days, " days, ");
      if hours != 0 {
        ret := ret + IntToString(hours) + " hours, ";
      }
      assert ret == Part(days, " days, ") + Part(hours, " hours, ");
      if minutes != 0 {
        ret := ret + IntToString(minutes) + " minutes, ";
      }
      assert ret == Part(days, " days, ") + Part(hours, " hours, ") + Part(minutes, " minutes, ");
      ghost var before := ret;
      if seconds != 0 {
        ret := ret + IntToString(seconds) + " seconds";
      } else {
        ret := ret + "0 seconds";
        ZeroSeconds(before);
      }
    } else {
      ret := "";
    }
  }

  lemma ZeroSeconds(before: string)
    ensures before + "0 seconds" == before + IntToString(0) + " seconds"
  {
    assert IntToString(0) == "0";
  }

  /** Reads `<digits><unit>` at the front of `s`, or nothing. */
  function ReadPart(s: string, unit: string): (Option<nat>, string) {
    var k := DigitPrefix(s);
    if 0 < k && k + |unit| <= |s| && s[k..k + |unit|] == unit then (Some(DigitsValue(s[..k])), s[k + |unit|..])
    else (None, s)
  }

  function OrZero(n: Option<nat>): nat {
    if n.Some? then n.value else 0
  }

  /** Reads an uptime text back; a missing component reads as zero. */
  function ParseUptime(s: string): Option<Uptime> {
    var d := ReadPart(s, " days, ");
    var h := ReadPart(d.1, " hours, ");
    var m := ReadPart(h.1, " minutes, ");
    var sec := ReadPart(m.1, " seconds");
    if sec.0.Some? && sec.1 == "" then Some(Uptime(OrZero(d.0), OrZero(h.0), OrZero(m.0), sec.0.value)) else None
  }

  lemma ReadPartHit(n: nat, unit: string, rest: string)
    requires |unit| >= 1 && unit[0] == ' '
    ensures ReadPart(NatToString(n) + unit + rest, unit) == (Some(n), rest)
  {
    var digits := NatToString(n);
    var s := digits + unit + rest;
    DigitPrefixOf(digits, unit + rest);
    assert s == digits + (unit + rest);
    DigitsRoundTrip(n);
    assert s[..|digits|] == digits;
    assert s[|digits|..|digits| + |unit|] == unit;
    assert s[|digits| + |unit|..] == rest;
  }

  lemma ReadPartMiss(n: nat, other: string, rest: string, unit: string)
    requires |other| >= 2 && other[0] == ' ' && |unit| >= 2 && other[1] != unit[1]
    ensures ReadPart(NatToString(n) + other + rest, unit) == (None, NatToString(n) + other + rest)
  {
    var digits := NatToString(n);
    var s := digits + other + rest;
    DigitPrefixOf(digits, other + rest);
    assert s == digits + (other + rest);
    var k := |digits|;
    if k + |unit| <= |s| {
      assert s[k..k + |unit|][1] == other[1];
    }
  }

  /** A component followed by a text that starts with another unit's
      component is read back, or read as missing when it was left out. */
  lemma ReadPartStep(n: nat, unit: string, next: nat, nextUnit: string, rest: string)
    requires |unit| >= 2 && unit[0] == ' ' && |nextUnit| >= 2 && nextUnit[0] == ' ' && unit[1] != nextUnit[1]
    ensures var tail := NatToString(next) + nextUnit + rest;
      ReadPart(Part(n, unit) + tail, unit) == (if n != 0 then Some(n) else None, tail)
  {
    var tail := NatToString(next) + nextUnit + rest;
    if n != 0 {
      assert Part(n, unit) + tail == NatToString(n) + unit + tail;
      ReadPartHit(n, unit, tail);
    } else {
      assert Part(n, unit) + tail == tail;
      ReadPartMiss(next, nextUnit, rest, unit);
    }
  }

  /** Reading back the text of non-negative components gives them back, so
      no component is lost or confused with another when some are left
      out. */
  lemma {:induction false} UptimeRoundTrip(p: Uptime)
    requires p.days >= 0 && p.hours >= 0 && p.minutes >= 0 && p.seconds >= 0
    ensures ParseUptime(UptimeText(p)) == Some(p)
  {
    var sec := NatToString(p.seconds) + " seconds";
    var ms := Part(p.minutes, " minutes, ") + sec;
    var hms := Part(p.hours, " hours, ") + ms;
    var text := Part(p.days, " days, ") + hms;
    UptimeTextNested(p);
    ReadPartHit(p.seconds, " seconds", "");
    assert sec == NatToString(p.seconds) + " seconds" + "";
    ReadPartStep(p.minutes, " minutes, ", p.seconds, " seconds", "");
    HoursStep(p.hours, p.minutes, p.seconds);
    DaysStep(p.days, p.hours, p.minutes, p.seconds);
    ParseFromParts(text, hms, ms, sec, p);
  }

  lemma UptimeTextNested(p: Uptime)
    requires p.seconds >= 0
    ensures UptimeText(p) == Part(p.days, " days, ") + (Part(p.hours, " hours, ")
      + (Part(p.minutes, " minutes, ") + (NatToString(p.seconds) + " seconds")))
  {
    var d, h, m := Part(p.days, " days, "), Part(p.hours, " hours, "), Part(p.minutes, " minutes, ");
    var sec := NatToString(p.seconds);
    assert UptimeText(p) == d + h + m + sec + " seconds";
    ConcatAssoc(d + h + m, sec, " seconds");
    ConcatAssoc(d + h, m, sec + " seconds");
    ConcatAssoc(d, h, m + (sec + " seconds"));
  }

  lemma ConcatAssoc(a: string, b: string, c: string)
    ensures a + b + c == a + (b + c)
  {
  }

  lemma ParseFromParts(text: string, hms: string, ms: string, sec: string, p: Uptime)
    requires p.days >= 0 && p.hours >= 0 && p.minutes >= 0 && p.seconds >= 0
    requires ReadPart(text, " days, ") == (if p.days != 0 then Some(p.days) else None, hms)
    requires ReadPart(hms, " hours, ") == (if p.hours != 0 then Some(p.hours) else None, ms)
    requires ReadPart(ms, " minutes, ") == (if p.minutes != 0 then Some(p.minutes) else None, sec)
    requires ReadPart(sec, " seconds") == (Some(p.seconds), "")
    ensures ParseUptime(text) == Some(p)
  {
  }

  lemma HoursStep(h: nat, m: nat, sec: nat)
    ensures var ms := Part(m, " minutes, ") + (NatToString(sec) + " seconds");
      ReadPart(Part(h, " hours, ") + ms, " hours, ") == (if h != 0 then Some(h) else None, ms)
  {
    var tail := NatToString(sec) + " seconds";
    if m != 0 {
      assert Part(m, " minutes, ") + tail == NatToString(m) + " minutes, " + tail;
      ReadPartStep(h, " hours, ", m, " minutes, ", tail);
    } else {
      assert Part(m, " minutes, ") + tail == NatToString(sec) + " seconds" + "";
      ReadPartStep(h, " hours, ", sec, " seconds", "");
    }
  }

  lemma DaysStep(d: nat, h: nat, m: nat, sec: nat)
    ensures var hms := Part(h, " hours, ") + (Part(m, " minutes, ") + (NatToString(sec) + " seconds"));
      ReadPart(Part(d, " days, ") + hms, " days, ") == (if d != 0 then Some(d) else None, hms)
  {
    var tail := NatToString(sec) + " seconds";
    var ms := Part(m, " minutes, ") + tail;
    if h != 0 {
      assert Part(h, " hours, ") + ms == NatToString(h) + " hours, " + ms;
      ReadPartStep(d, " days, ", h, " hours, ", ms);
    } else if m != 0 {
      assert Part(h, " hours, ") + ms == NatToString(m) + " minutes, " + tail;
      ReadPartStep(d, " days, ", m, " minutes, ", tail);
    } else {
      assert Part(h, " hours, ") + ms == NatToString(sec) + " seconds" + "";
      ReadPartStep(d, " days, ", sec, " seconds", "");
    }
  }

  /** The uptime text of a non-negative uptime reads back as its breakdown.
      For an uptime of 0 this is the text "0 seconds", which `upFor` itself
      never shows: it answers `''` for a zero uptime. */
  lemma UpForReadsBack(uptime: nat)
    ensures ParseUptime(UptimeText(Breakdown(uptime))) == Some(Breakdown(uptime))
  {
    UptimeRoundTrip(Breakdown(uptime));
  }

  // ---------------------------------------------------------------------
  // Key lists

  /** `item[1] == machine.id`: an item shorter than two reads `undefined`
      and matches nothing. */
  predicate Matches(item: Association, id: string) {
    |item| >= 2 && item[1] == id
  }

  predicate HasMachine(items: seq<Association>, id: string) {
    exists j :: 0 <= j < |items| && Matches(items[j], id)
  }

  /** The number of items naming the machine. */
  function MatchCount(items: seq<Association>, id: string): (c: nat)
    ensures c <= |items|
    ensures c > 0 <==> HasMachine(items, id)
  {
    if items == [] then 0
    else
      var init := items[..|items| - 1];
      assert forall j :: 0 <= j < |init| ==> init[j] == items[j];
      MatchCount(init, id) + (if Matches(items[|items| - 1], id) then 1 else 0)
  }

  /** A listed key's associations, a key without any counting as having
      none. */
  function ItemsOf(k: KeyView): seq<Association> {
    OrEmpty(k.machines)
  }

  /** The keys associated with the machine, in list order, each repeated
      once per association naming the machine. */
  function AssociatedKeys(keys: seq<KeyView>, id: string): (r: seq<KeyView>)
    ensures forall i :: 0 <= i < |r| ==> r[i] in keys
  {
    if keys == [] then []
    else
      var last := keys[|keys| - 1];
      AssociatedKeys(keys[..|keys| - 1], id) + seq(MatchCount(ItemsOf(last), id), _ => last)
  }

  /** The keys with no association naming the machine, in list order. */
  function UnassociatedKeys(keys: seq<KeyView>, id: string): (r: seq<KeyView>)
    ensures |r| <= |keys|
    ensures forall i :: 0 <= i < |r| ==> r[i] in keys
  {
    if keys == [] then []
    else
      var last := keys[|keys| - 1];
      UnassociatedKeys(keys[..|keys| - 1], id) + (if HasMachine(ItemsOf(last), id) then [] else [last])
  }

  /** Every listed key carries a list of associations. A key the server
      lists without one carries `false`, and `false.forEach` throws. */
  predicate AllListed(keys: seq<KeyView>) {
    forall i :: 0 <= i < |keys| ==> keys[i].machines.Some?
  }

  /** A value, or the `TypeError` the helper throws. */
  datatype Js<T> = Value(value: T) | Thrown

  function MachineKeysResult(machine: Option<ViewMachine>, keys: seq<KeyView>): (r: Js<seq<KeyView>>)
    ensures r.Thrown? <==> machine.Some? && !AllListed(keys)
    ensures machine.None? ==> r == Value([])
  {
    if machine.None? then Value([])
    else if AllListed(keys) then Value(AssociatedKeys(keys, machine.value.id))
    else Thrown
  }

  function MachineKeysRestResult(machine: Option<ViewMachine>, keys: seq<KeyView>): (r: Js<seq<KeyView>>)
    ensures r.Thrown? <==> machine.Some? && !AllListed(keys)
    ensures machine.None? ==> r == Value([])
  {
    if machine.None? then Value([])
    else if AllListed(keys) then Value(UnassociatedKeys(keys, machine.value.id))
    else Thrown
  }

  lemma RepeatOneMore(before: seq<KeyView>, n: nat, k: KeyView)
    ensures before + seq(n + 1, _ => k) == before + seq(n, _ => k) + [k]
  {
    assert seq(n + 1, _ => k) == seq(n, _ => k) + [k];
  }

  /** One more item seen by the inner loop of `machineKeys`. */
  lemma MatchCountStep(items: seq<Association>, j: nat, id: string)
    requires j < |items|
    ensures MatchCount(items[..j + 1], id) == MatchCount(items[..j], id) + (if Matches(items[j], id) then 1 else 0)
  {
    assert items[..j + 1][..j] == items[..j];
  }

  /** One more key seen by the outer loop of `machineKeys`. */
  lemma AssociatedKeysStep(keys: seq<KeyView>, i: nat, id: string)
    requires i < |keys|
    ensures AssociatedKeys(keys[..i + 1], id)
      == AssociatedKeys(keys[..i], id) + seq(MatchCount(ItemsOf(keys[i]), id), _ => keys[i])
  {
    assert keys[..i + 1][..i] == keys[..i];
  }

  lemma AllListedStep(keys: seq<KeyView>, i: nat)
    requires i < |keys| && AllListed(keys[..i]) && keys[i].machines.Some?
    ensures AllListed(keys[..i + 1])
  {
    assert keys[..i + 1] == keys[..i] + [keys[i]];
  }

  /** `machineKeys`. */
  method MachineKeys(machine: Option<ViewMachine>, keys: seq<KeyView>) returns (r: Js<seq<KeyView>>)
    ensures r == MachineKeysResult(machine, keys)
  {
    if machine.None? {
      return Value([]);
    }
    var id := machine.value.id;
    var ret: seq<KeyView> := [];
    var i := 0;
    while i < |keys|
      invariant 0 <= i <= |keys|
      invariant AllListed(keys[..i])
      invariant ret == AssociatedKeys(keys[..i], id)
    {
      var key := keys[i];
      if key.machines.None? {
        return Thrown;
      }
      ret := PushMatching(ret, key, key.machines.value, id);
      AssociatedKeysStep(keys, i, id);
      AllListedStep(keys, i);
      i := i + 1;
    }
    assert keys[..i] == keys;
    r := Value(ret);
  }

  /** The inner `forEach` of `machineKeys`: `key` is pushed once for every
      item naming the machine. */
  method PushMatching(ret: seq<KeyView>, key: KeyView, items: seq<Association>, id: string)
    returns (out: seq<KeyView>)
    ensures out == ret + seq(MatchCount(items, id), _ => key)
  {
    out := ret;
    var j := 0;
    while j < |items|
      invariant 0 <= j <= |items|
      invariant out == ret + seq(MatchCount(items[..j], id), _ => key)
    {
      MatchCountStep(items, j, id);
      if |items[j]| >= 2 && items[j][1] == id {
        RepeatOneMore(ret, MatchCount(items[..j], id), key);
        out := out + [key];
      }
      j := j + 1;
    }
    assert items[..j] == items;
  }

  /** `machineKeysRest`. */
  method MachineKeysRest(machine: Option<ViewMachine>, keys: seq<KeyView>) returns (r: Js<seq<KeyView>>)
    ensures r == MachineKeysRestResult(machine, keys)
  {
    if machine.None? {
      return Value([]);
    }
    var id := machine.value.id;
    var ret: seq<KeyView> := [];
    var hasMachine := false;
    var i := 0;
    while i < |keys|
      invariant 0 <= i <= |keys|
      invariant AllListed(keys[..i])
      invariant ret == UnassociatedKeys(keys[..i], id)
    {
      var key := keys[i];
      hasMachine := false;
      if key.machines.None? {
        return Thrown;
      }
      hasMachine := NamesMachine(key.machines.value, id);
      if !hasMachine {
        ret := ret + [key];
      }
      assert keys[..i + 1][..i] == keys[..i];
      AllListedStep(keys, i);
      i := i + 1;
    }
    assert keys[..i] == keys;
    r := Value(ret);
  }

  /** The inner `forEach` of `machineKeysRest`: whether an item names the
      machine. */
  method NamesMachine(items: seq<Association>, id: string) returns (found: bool)
    ensures found <==> HasMachine(items, id)
  {
    found := false;
    var j := 0;
    while j < |items|
      invariant 0 <= j <= |items|
      invariant found <==> HasMachine(items[..j], id)
    {
      assert items[..j + 1][..j] == items[..j];
      if |items[j]| >= 2 && items[j][1] == id {
        found := true;
      }
      j := j + 1;
    }
    assert items[..j] == items;
  }

  /** The associated list holds exactly the keys with an association
      naming the machine. */
  lemma {:induction false} AssociatedKeysMembers(keys: seq<KeyView>, id: string, k: KeyView)
    ensures k in AssociatedKeys(keys, id) <==> k in keys && HasMachine(ItemsOf(k), id)
  {
    if keys != [] {
      var init, last := keys[..|keys| - 1], keys[|keys| - 1];
      AssociatedKeysMembers(init, id, k);
      assert keys == init + [last];
      var c := MatchCount(ItemsOf(last), id);
      var block := seq(c, _ => last);
      if c > 0 {
        assert block[0] == last;
      }
      assert forall x :: x in block ==> x == last;
      assert AssociatedKeys(keys, id) == AssociatedKeys(init, id) + block;
    }
  }

  /** The rest holds exactly the keys with no such association. */
  lemma {:induction false} UnassociatedKeysMembers(keys: seq<KeyView>, id: string, k: KeyView)
    ensures k in UnassociatedKeys(keys, id) <==> k in keys && !HasMachine(ItemsOf(k), id)
  {
    if keys != [] {
      var init, last := keys[..|keys| - 1], keys[|keys| - 1];
      UnassociatedKeysMembers(init, id, k);
      assert keys == init + [last];
    }
  }

  /** Every key is in exactly one of the two lists. */
  lemma KeysPartition(keys: seq<KeyView>, id: string, k: KeyView)
    requires k in keys
    ensures k in AssociatedKeys(keys, id) <==> k !in UnassociatedKeys(keys, id)
  {
    AssociatedKeysMembers(keys, id, k);
    UnassociatedKeysMembers(keys, id, k);
  }

  /** Both lists keep list order: the lists of a concatenation are the
      concatenated lists. */
  lemma {:induction false} KeyListsConcat(a: seq<KeyView>, b: seq<KeyView>, id: string)
    ensures AssociatedKeys(a + b, id) == AssociatedKeys(a, id) + AssociatedKeys(b, id)
    ensures UnassociatedKeys(a + b, id) == UnassociatedKeys(a, id) + UnassociatedKeys(b, id)
  {
    if b == [] {
      assert a + b == a;
    } else {
      var init, last := b[..|b| - 1], b[|b| - 1];
      assert (a + b)[..|a + b| - 1] == a + init;
      assert (a + b)[|a + b| - 1] == last;
      KeyListsConcat(a, init, id);
    }
  }

  /** A key that has just been added has no associations. The server lists
      it with `false`, and both key lists of the machine page then throw. */
  lemma NewKeyBreaksKeyLists(s: Store, name: string, pub: string, priv: string, machine: ViewMachine)
    requires WellFormed(s)
    ensures var keys := ListKeys(Added(s, name, pub, priv).store);
      MachineKeysResult(Some(machine), keys) == Thrown
      && MachineKeysRestResult(Some(machine), keys) == Thrown
  {
    var after := Added(s, name, pub, priv).store;
    var keys := ListKeys(after);
    assert name in after.keypairs && after.keypairs[name].machines.None?;
    var i :| 0 <= i < |keys| && keys[i].name == name;
    assert keys[i].machines.None?;
  }
}

=== FILE: metadata.dfy ===
/** How the handlers read provider records: the machine listing's tag, image
    and size fallbacks, the location listing's display name, the
    `provider:region` parse of a new backend and the value-based tag lookup
    that deletes a machine's tag.

    Provider dictionaries are `Dict`s (pairs in iteration order). The
    `STATES` and `LINODE_DATACENTERS` tables are configuration and appear as
    total functions `states` and `datacenters`. */
module Metadata {
  import opened Common
  import opened Text

  // ---------------------------------------------------------------------
  // Machine listing

  /** The entries of a node's `extra` dictionary the listing consults; an
      absent entry is `None`. */
  datatype Extra = Extra(
    tags: Option<Dict>,
    metadata: Option<Dict>,
    availability: Option<string>,
    datacenterId: Option<int>,
    imageId: Option<string>,
    flavorId: Option<string>,
    instanceType: Option<string>)

  /** A node as the SDK lists it. */
  datatype RawNode = RawNode(
    id: string, name: string, state: int,
    image: Option<string>, size: Option<string>,
    privateIps: seq<string>, publicIps: seq<string>,
    extra: Extra)

  /** A machine as the listing returns it to the client. */
  datatype Machine = Machine(
    id: string, name: string, imageId: Option<string>, size: Option<string>,
    state: string, privateIps: seq<string>, publicIps: seq<string>,
    tags: seq<string>, extra: Extra)

  /** The values of a dictionary whose key is not `Name`, in order. */
  function TagValues(d: Dict): (r: seq<string>)
    ensures |r| <= |d|
  {
    if d == [] then []
    else (if d[0].0 != "Name" then [d[0].1] else []) + TagValues(d[1..])
  }

  lemma {:induction false} TagValuesConcat(a: Dict, b: Dict)
    ensures TagValues(a + b) == TagValues(a) + TagValues(b)
  {
    if a != [] {
      var head := if a[0].0 != "Name" then [a[0].1] else [];
      assert (a + b)[0] == a[0] && (a + b)[1..] == a[1..] + b;
      TagValuesConcat(a[1..], b);
      assert TagValues(a + b) == head + TagValues(a[1..] + b);
    } else {
      assert a + b == b;
    }
  }

  /** A value is a tag exactly when some entry not keyed `Name` holds it. */
  lemma {:induction false} TagValuesMembers(d: Dict, v: string)
    ensures v in TagValues(d) <==> exists i :: 0 <= i < |d| && d[i].0 != "Name" && d[i].1 == v
  {
    if d != [] {
      TagValuesMembers(d[1..], v);
      if v in TagValues(d[1..]) {
        var i :| 0 <= i < |d[1..]| && d[1..][i].0 != "Name" && d[1..][i].1 == v;
        assert d[i + 1] == d[1..][i];
      }
      if exists i :: 0 <= i < |d| && d[i].0 != "Name" && d[i].1 == v {
        var i :| 0 <= i < |d| && d[i].0 != "Name" && d[i].1 == v;
        if i > 0 {
          assert d[1..][i - 1] == d[i];
        }
      }
    }
  }

  /** Dropping an entry keyed `Name` does not change the tags. */
  lemma NameEntryIgnored(d: Dict, i: nat)
    requires i < |d| && d[i].0 == "Name"
    ensures TagValues(d[..i] + d[i + 1..]) == TagValues(d)
  {
    assert d == d[..i] + [d[i]] + d[i + 1..];
    NameEntryDropped(d[..i], d[i], d[i + 1..]);
  }

  lemma NameEntryDropped(pre: Dict, x: (string, string), post: Dict)
    requires x.0 == "Name"
    ensures TagValues(pre + [x] + post) == TagValues(pre + post)
  {
    assert TagValues([x]) == [] by {
      assert [x][1..] == [];
    }
    calc {
      TagValues(pre + [x] + post);
      { assert pre + [x] + post == pre + ([x] + post); }
      TagValues(pre + ([x] + post));
      { TagValuesConcat(pre, [x] + post); }
      TagValues(pre) + TagValues([x] + post);
      { TagValuesConcat([x], post); }
      TagValues(pre) + TagValues(post);
      { TagValuesConcat(pre, post); }
      TagValues(pre + post);
    }
  }

  /** The dictionary the tags come from: `extra.tags`, else
      `extra.metadata`, else nothing. */
  function TagSource(e: Extra): Dict {
    if TruthyDict(e.tags) then e.tags.value
    else if TruthyDict(e.metadata) then e.metadata.value
    else []
  }

  /** The location tag: the EC2 availability zone, else the Linode
      datacenter's name, else none. */
  function LocationTag(e: Extra, datacenters: int -> string): Option<string> {
    if Truthy(e.availability) then e.availability
    else if e.datacenterId.Some? && e.datacenterId.value != 0 then Some(datacenters(e.datacenterId.value))
    else None
  }

  function MachineTags(e: Extra, datacenters: int -> string): (r: seq<string>)
    ensures |r| <= |TagSource(e)| + 1
  {
    var loc := LocationTag(e, datacenters);
    TagValues(TagSource(e)) + (if loc.Some? then [loc.value] else [])
  }

  function ImageRef(n: RawNode): Option<string> {
    Or(n.image, n.extra.imageId)
  }

  function SizeRef(n: RawNode): Option<string> {
    Or(Or(n.size, n.extra.flavorId), n.extra.instanceType)
  }

  function NormalizeMachine(n: RawNode, states: int -> string, datacenters: int -> string): (r: Machine)
    ensures r.id == n.id && r.name == n.name && r.extra == n.extra
    ensures r.imageId in {n.image, n.extra.imageId}
    ensures Truthy(r.imageId) <==> Truthy(n.image) || Truthy(n.extra.imageId)
    ensures r.size in {n.size, n.extra.flavorId, n.extra.instanceType}
    ensures Truthy(r.size) <==> Truthy(n.size) || Truthy(n.extra.flavorId) || Truthy(n.extra.instanceType)
    ensures |r.tags| <= |TagSource(n.extra)| + 1
  {
    Machine(n.id, n.name, ImageRef(n), SizeRef(n), states(n.state), n.privateIps, n.publicIps,
            MachineTags(n.extra, datacenters), n.extra)
  }

  /** The per-node loop of `list_machines`. */
  method ListMachines(nodes: seq<RawNode>, states: int -> string, datacenters: int -> string)
    returns (ret: seq<Machine>)
    ensures |ret| == |nodes|
    ensures forall i :: 0 <= i < |nodes| ==> ret[i] == NormalizeMachine(nodes[i], states, datacenters)
  {
    ret := [];
    var i := 0;
    while i < |nodes|
      invariant 0 <= i <= |nodes| && |ret| == i
      invariant forall j :: 0 <= j < i ==> ret[j] == NormalizeMachine(nodes[j], states, datacenters)
    {
      var m := nodes[i];
      var source := if TruthyDict(m.extra.tags) then m.extra.tags else m.extra.metadata;
      var dict := if TruthyDict(source) then source.value else [];
      var tags := TagValues(dict);
      if Truthy(m.extra.availability) {
        tags := tags + [m.extra.availability.value];
      } else if m.extra.datacenterId.Some? && m.extra.datacenterId.value != 0 {
        tags := tags + [datacenters(m.extra.datacenterId.value)];
      }
      var imageId := Or(m.image, m.extra.imageId);
      var size := Or(m.size, m.extra.flavorId);
      size := Or(size, m.extra.instanceType);
      ret := ret + [Machine(m.id, m.name, imageId, size, states(m.state), m.privateIps, m.publicIps, tags, m.extra)];
      i := i + 1;
    }
  }

  /** The tags of a listed machine are the values of its first non-empty
      tag dictionary whose key is not `Name`, followed by its location, and
      nothing else. */
  lemma MachineTagsMembers(e: Extra, datacenters: int -> string, v: string)
    ensures var src := if TruthyDict(e.tags) then e.tags.value
                       else if TruthyDict(e.metadata) then e.metadata.value else [];
      (v in MachineTags(e, datacenters)) <==>
        ((exists i :: 0 <= i < |src| && src[i].0 != "Name" && src[i].1 == v)
         || LocationTag(e, datacenters) == Some(v))
  {
    TagValuesMembers(TagSource(e), v);
  }

  /** The location goes last: the availability zone when set, else the
      datacenter's name for a non-zero datacenter id, else nothing is
      appended. */
  lemma LocationTagIsLast(e: Extra, datacenters: int -> string)
    ensures var r := MachineTags(e, datacenters);
      && r[..|TagValues(TagSource(e))|] == TagValues(TagSource(e))
      && (Truthy(e.availability) ==> r[|r| - 1] == e.availability.value)
      && ((!Truthy(e.availability) && e.datacenterId.Some? && e.datacenterId.value != 0) ==>
            r[|r| - 1] == datacenters(e.datacenterId.value))
      && ((!Truthy(e.availability) && (e.datacenterId.None? || e.datacenterId.value == 0)) ==>
            r == TagValues(TagSource(e)))
  {
    var r := MachineTags(e, datacenters);
    assert r[..|TagValues(TagSource(e))|] == TagValues(TagSource(e));
  }

  /** A non-empty `tags` dictionary hides `metadata` entirely, even when its
      only entry is `Name` and so no tag is listed from it. */
  lemma NameOnlyTagsHideMetadata(e: Extra, datacenters: int -> string, name: string)
    requires e.tags == Some([("Name", name)])
    ensures var loc := LocationTag(e, datacenters);
      MachineTags(e, datacenters) == (if loc.Some? then [loc.value] else [])
  {
    assert TagValues([("Name", name)]) == TagValues([]) == [];
  }

  /** The image is the node's image, else `extra.imageId`; the size is the
      node's size, else `flavorId`, else `instancetype`. */
  lemma ImageAndSizeFallbacks(n: RawNode)
    ensures Truthy(n.image) ==> ImageRef(n) == n.image
    ensures !Truthy(n.image) ==> ImageRef(n) == n.extra.imageId
    ensures Truthy(n.size) ==> SizeRef(n) == n.size
    ensures !Truthy(n.size) && Truthy(n.extra.flavorId) ==> SizeRef(n) == n.extra.flavorId
    ensures !Truthy(n.size) && !Truthy(n.extra.flavorId) ==> SizeRef(n) == n.extra.instanceType
  {
  }

  // ---------------------------------------------------------------------
  // Location listing

  /** A location as the SDK lists it; `zone` is the name of its availability
      zone, which EC2 locations carry. */
  datatype RawLocation = RawLocation(id: string, name: string, country: string, zone: string)

  datatype LocationView = LocationView(id: string, name: string, country: string)

  /** The loop of `list_locations`: on EC2, whose locations all share one
      name, the availability zone is shown instead. */
  method ListLocations(t: ProviderType, ec2: set<ProviderType>, locations: seq<RawLocation>)
    returns (ret: seq<LocationView>)
    ensures |ret| == |locations|
    ensures forall i :: 0 <= i < |ret| ==>
      && ret[i].id == locations[i].id && ret[i].country == locations[i].country
      && ret[i].name == (if t in ec2 then locations[i].zone else locations[i].name)
  {
    ret := [];
    for i := 0 to |locations|
      invariant |ret| == i
      invariant forall j :: 0 <= j < i ==>
        && ret[j].id == locations[j].id && ret[j].country == locations[j].country
        && ret[j].name == (if t in ec2 then locations[j].zone else locations[j].name)
    {
      var name;
      if t in ec2 {
        name := locations[i].zone;
      } else {
        name := locations[i].name;
      }
      ret := ret + [LocationView(locations[i].id, name, locations[i].country)];
    }
  }

  // ---------------------------------------------------------------------
  // Adding a backend

  /** The request's `provider.provider`: a numeric provider code or a
      string, possibly `"<provider>:<region>"`. */
  datatype ProviderParam = ProviderCode(code: int) | ProviderName(name: string)

  predicate ProviderTruthy(p: ProviderParam) {
    match p
    case ProviderCode(c) => c != 0
    case ProviderName(s) => s != ""
  }

  /** `MissingProvider`: the request has no usable `provider` entry and the
      handler fails reading it. */
  datatype BackendParse = Accepted(provider: ProviderParam, region: string) | InvalidBackendData | MissingProvider

  function ParseBackend(provider: Option<ProviderParam>, apikey: string, apisecret: string): (r: BackendParse)
    ensures r.MissingProvider? <==> provider.None?
    ensures provider.Some? && (apikey == "" || apisecret == "") ==> r == InvalidBackendData
    ensures r.Accepted? ==> ProviderTruthy(r.provider) && apikey != "" && apisecret != ""
    ensures r.Accepted? && r.provider.ProviderName? ==> ':' !in r.provider.name && ':' !in r.region
    ensures r.Accepted? && r.provider.ProviderCode? ==> r.provider == provider.value && r.region == ""
    ensures provider.Some? && provider.value.ProviderCode? ==>
      (r.Accepted? <==> provider.value.code != 0 && apikey != "" && apisecret != "")
  {
    if provider.None? then MissingProvider
    else
      var (p, region) :=
        match provider.value
        case ProviderName(s) =>
          if ':' in s then
            var parts := Split(s, ':');
            (ProviderName(parts[0]), parts[1])
          else (provider.value, "")
        case ProviderCode(_) => (provider.value, "");
      if !ProviderTruthy(p) || apikey == "" || apisecret == "" then InvalidBackendData
      else Accepted(p, region)
  }

  /** `"<provider>:<region>"` is read back as its two parts. */
  lemma ParseBackendRoundTrip(p: string, region: string, apikey: string, apisecret: string)
    requires ':' !in p && ':' !in region
    requires p != "" && apikey != "" && apisecret != ""
    ensures ParseBackend(Some(ProviderName(p + ":" + region)), apikey, apisecret)
      == Accepted(ProviderName(p), region)
  {
    SplitAtFirst(p, ':', region);
    SplitNoSeparator(region, ':');
    assert p + ":" + region == p + [':'] + region;
  }

  /** A name without a colon is taken whole, with an empty region. */
  lemma ParseBackendWithoutRegion(p: string, apikey: string, apisecret: string)
    requires ':' !in p && p != "" && apikey != "" && apisecret != ""
    ensures ParseBackend(Some(ProviderName(p)), apikey, apisecret) == Accepted(ProviderName(p), "")
  {
  }

  /** A non-zero provider code with both credentials is accepted as it is. */
  lemma ParseBackendCode(c: int, apikey: string, apisecret: string)
    requires c != 0 && apikey != "" && apisecret != ""
    ensures ParseBackend(Some(ProviderCode(c)), apikey, apisecret) == Accepted(ProviderCode(c), "")
  {
  }

  /** Anything after a second colon is dropped. */
  lemma ParseBackendDropsThirdSegment(p: string, region: string, rest: string, apikey: string, apisecret: string)
    requires ':' !in p && ':' !in region
    requires p != "" && apikey != "" && apisecret != ""
    ensures ParseBackend(Some(ProviderName(p + ":" + region + ":" + rest)), apikey, apisecret)
      == Accepted(ProviderName(p), region)
  {
    SplitAtFirst(p, ':', region + ":" + rest);
    SplitAtFirst(region, ':', rest);
    assert p + ":" + region + ":" + rest == p + [':'] + (region + [':'] + rest);
  }

  /** A string starting with a colon names no provider and is rejected. */
  lemma ParseBackendEmptyProvider(region: string, apikey: string, apisecret: string)
    ensures ParseBackend(Some(ProviderName(":" + region)), apikey, apisecret) == InvalidBackendData
  {
    SplitAtFirst("", ':', region);
    assert ":" + region == "" + [':'] + region;
  }

  // ---------------------------------------------------------------------
  // Deleting a tag by value

  /** What the provider is asked to do: drop one EC2 tag, or replace the
      whole metadata dictionary. */
  datatype MetadataRequest = DeleteTags(key: string, value: string) | SetMetadata(metadata: Dict)

  /** The handler's answer before the provider call: unsupported provider
      (501), no `tag` in the body (400), the node listing failed (404), no
      node with that id so `machine` is unbound (an escaping `NameError`),
      no tag dictionary (404), an EC2 tag with that value missing so `pair`
      is unbound when the provider is called (503), or the request sent. */
  datatype DeleteTagOutcome =
    | NotSupported | Malformed | MachineNotFound | MachineUnbound
    | TagNotFound | PairUnbound | Send(request: MetadataRequest)

  /** The position of the first node with id `id`. */
  function FirstWithId(nodes: seq<RawNode>, id: string): (r: Option<nat>)
    ensures r.Some? ==>
      && r.value < |nodes| && nodes[r.value].id == id
      && forall j :: 0 <= j < r.value ==> nodes[j].id != id
    ensures r.None? ==> forall j :: 0 <= j < |nodes| ==> nodes[j].id != id
  {
    if nodes == [] then None
    else if nodes[0].id == id then Some(0)
    else match FirstWithId(nodes[1..], id)
      case None => None
      case Some(i) => Some(i + 1)
  }

  /** The position of the first entry whose value is `v`. */
  function FirstWithValue(d: Dict, v: string): (r: Option<nat>)
    ensures r.Some? ==>
      && r.value < |d| && d[r.value].1 == v
      && forall j :: 0 <= j < r.value ==> d[j].1 != v
    ensures r.None? ==> forall j :: 0 <= j < |d| ==> d[j].1 != v
  {
    if d == [] then None
    else if d[0].1 == v then Some(0)
    else match FirstWithValue(d[1..], v)
      case None => None
      case Some(i) => Some(i + 1)
  }

  /** `delete_machine_metadata` up to the provider call. */
  function DeleteTag(t: ProviderType, ec2: set<ProviderType>, tag: Option<string>,
                     nodes: Option<seq<RawNode>>, machineId: string): (r: DeleteTagOutcome)
    ensures r == NotSupported <==> t == Linode || t == RackspaceFirstGen
    ensures r == MachineUnbound <==>
      && t != Linode && t != RackspaceFirstGen && tag.Some? && nodes.Some?
      && FirstWithId(nodes.value, machineId).None?
    ensures r.Send? ==> tag.Some? && nodes.Some? && FirstWithId(nodes.value, machineId).Some?
    ensures r.Send? ==> (r.request.DeleteTags? <==> t in ec2)
    ensures r == PairUnbound ==> t in ec2
  {
    if t == Linode || t == RackspaceFirstGen then NotSupported
    else if tag.None? then Malformed
    else if nodes.None? then MachineNotFound
    else match FirstWithId(nodes.value, machineId)
      case None => MachineUnbound
      case Some(n) =>
        var extra := nodes.value[n].extra;
        if t in ec2 then DeleteFrom(true, extra.tags, tag.value)
        else DeleteFrom(false, extra.metadata, tag.value)
  }

  /** The search of the machine's tag dictionary (`tags` on EC2,
      `metadata` elsewhere) for the value. */
  function DeleteFrom(onEc2: bool, dict: Option<Dict>, tag: string): (r: DeleteTagOutcome)
    ensures r == TagNotFound || r == PairUnbound || r.Send?
    ensures r == TagNotFound <==> dict.None?
    ensures r == PairUnbound <==> onEc2 && dict.Some? && FirstWithValue(dict.value, tag).None?
    ensures r.Send? ==> dict.Some? && (r.request.DeleteTags? <==> onEc2)
    ensures r.Send? && r.request.DeleteTags? ==> r.request.value == tag
    ensures r.Send? && r.request.SetMetadata? ==> |r.request.metadata| <= |dict.value|
  {
    if dict.None? then TagNotFound
    else
      var d := dict.value;
      match FirstWithValue(d, tag)
      case Some(i) => if onEc2 then Send(DeleteTags(d[i].0, tag)) else Send(SetMetadata(d[..i] + d[i + 1..]))
      case None => if onEc2 then PairUnbound else Send(SetMetadata(d))
  }

  /** The handler, with its search of the node list. */
  method DeleteMachineMetadata(t: ProviderType, ec2: set<ProviderType>, tag: Option<string>,
                               nodes: Option<seq<RawNode>>, machineId: string)
    returns (r: DeleteTagOutcome)
    ensures r == DeleteTag(t, ec2, tag, nodes, machineId)
  {
    if t == Linode || t == RackspaceFirstGen {
      return NotSupported;
    }
    if tag.None? {
      return Malformed;
    }
    if nodes.None? {
      return MachineNotFound;
    }
    var ns := nodes.value;
    var n := 0;
    while n < |ns| && ns[n].id != machineId
      invariant 0 <= n <= |ns|
      invariant forall j :: 0 <= j < n ==> ns[j].id != machineId
    {
      n := n + 1;
    }
    if n == |ns| {
      return MachineUnbound;
    }
    FirstWithIdIs(ns, machineId, n);
    var extra := ns[n].extra;
    if t in ec2 {
      r := DeleteFromDict(true, extra.tags, tag.value);
    } else {
      r := DeleteFromDict(false, extra.metadata, tag.value);
    }
  }

  /** The search of the tag dictionary for the value, and the request built
      from what it found. */
  method DeleteFromDict(onEc2: bool, dict: Option<Dict>, tag: string) returns (r: DeleteTagOutcome)
    ensures r == DeleteFrom(onEc2, dict, tag)
  {
    if dict.None? {
      return TagNotFound;
    }
    var d := dict.value;
    var i := 0;
    while i < |d| && d[i].1 != tag
      invariant 0 <= i <= |d|
      invariant forall j :: 0 <= j < i ==> d[j].1 != tag
    {
      i := i + 1;
    }
    if i < |d| {
      FirstWithValueIs(d, tag, i);
    }
    if onEc2 {
      if i == |d| {
        r := PairUnbound;
      } else {
        r := Send(DeleteTags(d[i].0, tag));
      }
    } else {
      if i < |d| {
        d := d[..i] + d[i + 1..];
      }
      r := Send(SetMetadata(d));
    }
  }

  lemma {:induction false} FirstWithIdIs(nodes: seq<RawNode>, id: string, n: nat)
    requires n < |nodes| && nodes[n].id == id
    requires forall j :: 0 <= j < n ==> nodes[j].id != id
    ensures FirstWithId(nodes, id) == Some(n)
  {
    if n > 0 {
      FirstWithIdIs(nodes[1..], id, n - 1);
    }
  }

  lemma {:induction false} FirstWithValueIs(d: Dict, v: string, i: nat)
    requires i < |d| && d[i].1 == v
    requires forall j :: 0 <= j < i ==> d[j].1 != v
    ensures FirstWithValue(d, v) == Some(i)
  {
    if i > 0 {
      FirstWithValueIs(d[1..], v, i - 1);
    }
  }

  /** Outside EC2 the metadata sent back is the machine's metadata without
      its first entry holding the value: that one entry is gone and every
      other entry stays, in order. */
  lemma DeleteMetadataRemovesFirstMatch(t: ProviderType, ec2: set<ProviderType>, tag: string,
                                        nodes: seq<RawNode>, machineId: string, n: nat, i: nat)
    requires t != Linode && t != RackspaceFirstGen && t !in ec2
    requires FirstWithId(nodes, machineId) == Some(n) && nodes[n].extra.metadata.Some?
    requires var d := nodes[n].extra.metadata.value;
      i < |d| && d[i].1 == tag && forall j :: 0 <= j < i ==> d[j].1 != tag
    ensures var d := nodes[n].extra.metadata.value;
      var r := DeleteTag(t, ec2, Some(tag), Some(nodes), machineId);
      && r.Send? && r.request.SetMetadata?
      && |r.request.metadata| == |d| - 1
      && multiset(r.request.metadata) == multiset(d) - multiset{d[i]}
      && r.request.metadata[..i] == d[..i] && r.request.metadata[i..] == d[i + 1..]
  {
    var d := nodes[n].extra.metadata.value;
    FirstWithValueIs(d, tag, i);
    var after := d[..i] + d[i + 1..];
    assert DeleteTag(t, ec2, Some(tag), Some(nodes), machineId) == Send(SetMetadata(after));
    assert after[..i] == d[..i] && after[i..] == d[i + 1..];
    assert d == d[..i] + [d[i]] + d[i + 1..];
    assert multiset(d) == multiset(d[..i]) + multiset{d[i]} + multiset(d[i + 1..]);
  }

  /** On EC2 the tag sent for deletion is the first entry of the machine's
      tags holding the value, under its own key. */
  lemma DeleteEc2TagSendsFirstMatch(t: ProviderType, ec2: set<ProviderType>, tag: string,
                                    nodes: seq<RawNode>, machineId: string, n: nat, i: nat)
    requires t != Linode && t != RackspaceFirstGen && t in ec2
    requires FirstWithId(nodes, machineId) == Some(n) && nodes[n].extra.tags.Some?
    requires var d := nodes[n].extra.tags.value;
      i < |d| && d[i].1 == tag && forall j :: 0 <= j < i ==> d[j].1 != tag
    ensures DeleteTag(t, ec2, Some(tag), Some(nodes), machineId)
      == Send(DeleteTags(nodes[n].extra.tags.value[i].0, tag))
  {
    FirstWithValueIs(nodes[n].extra.tags.value, tag, i);
  }

  /** A value no entry holds: outside EC2 the metadata is sent back
      unchanged (and the handler reports success); on EC2 `pair` is never
      bound and the handler answers 503. */
  lemma DeleteTagWithoutMatch(t: ProviderType, ec2: set<ProviderType>, tag: string,
                              nodes: seq<RawNode>, machineId: string, n: nat)
    requires t != Linode && t != RackspaceFirstGen
    requires FirstWithId(nodes, machineId) == Some(n)
    requires var e := nodes[n].extra;
      var d := if t in ec2 then e.tags else e.metadata;
      d.Some? && forall j :: 0 <= j < |d.value| ==> d.value[j].1 != tag
    ensures var r := DeleteTag(t, ec2, Some(tag), Some(nodes), machineId);
      if t in ec2 then r == PairUnbound else r == Send(SetMetadata(nodes[n].extra.metadata.value))
  {
  }
}

=== FILE: provisioning.dfy ===
/** The decisions `create_machine` takes around the cloud SDK: which payloads
    it accepts, which of its four creation branches runs, and when it records
    the new machine against the keypair it deployed with.

    Everything the SDK does is given as parameters (`Sdk`): the locations an
    EC2 connection lists, whether the key import and the security group
    succeeded, and the id of the node the create/deploy call returned (or
    `None` when it raised). */
module Provisioning {
  import opened Common
  import opened Keys

  /** The four branches of `create_machine`, in the order they are tried. */
  datatype Branch = RackspaceDeploy | Ec2Deploy | LinodeCreate | Generic

  predicate IsRackspace(t: ProviderType) {
    t == RackspaceFirstGen || t == Rackspace
  }

  /** The branch taken for a connection of type `t`, given the EC2 provider
      set and the public key of the selected keypair (if any). */
  function ChooseBranch(t: ProviderType, ec2: set<ProviderType>, publicKey: Option<string>): (b: Branch)
    ensures b == RackspaceDeploy <==> IsRackspace(t) && Truthy(publicKey)
    ensures b == Ec2Deploy <==> !IsRackspace(t) && t in ec2 && Truthy(publicKey)
    ensures b == LinodeCreate <==> !IsRackspace(t) && t !in ec2 && t == Linode && Truthy(publicKey)
  {
    if IsRackspace(t) && Truthy(publicKey) then RackspaceDeploy
    else if t in ec2 && Truthy(publicKey) then Ec2Deploy
    else if t == Linode && Truthy(publicKey) then LinodeCreate
    else Generic
  }

  /** A key is deployed exactly when the keypair has a public key and the
      provider is one the handler knows how to give it to. */
  lemma DeployBranchNeedsPublicKey(t: ProviderType, ec2: set<ProviderType>, publicKey: Option<string>)
    ensures ChooseBranch(t, ec2, publicKey) != Generic
      <==> Truthy(publicKey) && (IsRackspace(t) || t in ec2 || t == Linode)
  {
  }

  /** The request fields `create_machine` reads; `script` is optional. */
  datatype Payload = Payload(
    name: string, location: string, image: string, size: string,
    script: string, imageExtra: string, disk: string)

  /** Reading the JSON body: a missing required field is an invalid
      payload. */
  function ParsePayload(body: map<string, string>): (r: Option<Payload>)
    ensures r.Some? <==> {"name", "location", "image", "size", "image_extra", "disk"} <= body.Keys
    ensures r.Some? ==>
      && r.value.name == body["name"] && r.value.location == body["location"]
      && r.value.image == body["image"] && r.value.size == body["size"]
      && r.value.imageExtra == body["image_extra"] && r.value.disk == body["disk"]
    ensures r.Some? ==> r.value.script == (if "script" in body then body["script"] else "")
  {
    if "name" in body && "location" in body && "image" in body && "size" in body
      && "image_extra" in body && "disk" in body
    then
      var script := if "script" in body then body["script"] else "";
      Some(Payload(body["name"], body["location"], body["image"], body["size"],
                   script, body["image_extra"], body["disk"]))
    else None
  }

  /** What the SDK answers during one creation. */
  datatype Sdk = Sdk(
    locationIds: seq<string>,   // `conn.list_locations()` on EC2
    importedKey: bool,          // `import_key(...)`
    securityGroup: bool,        // `create_security_group(...)`
    node: Option<string>)       // id of the created node, `None` if the call raised

  /** The handler's answer: invalid payload (400), a creation error (500),
      an escaping `NameError` because `node` was never bound, or the node. */
  datatype Outcome = InvalidPayload | CreationFailed(branch: Branch) | NodeUnbound | Created(nodeId: string)

  datatype CreateStep = CreateStep(store: Store, outcome: Outcome, flushed: bool)

  /** The public key of the selected keypair, `None` without one. */
  function PublicKeyOf(s: Store, keypair: Option<string>): Option<string>
    requires keypair.Some? ==> keypair.value in s.keypairs
  {
    if keypair.Some? then Some(s.keypairs[keypair.value].public) else None
  }

  /** `create_machine` on a keystore `s`. `keypair` is the name the keypair
      helpers selected (by the request's `key`, else the default), `None`
      when they found none. */
  function Creation(s: Store, t: ProviderType, ec2: set<ProviderType>, backendId: string,
                    keypair: Option<string>, body: map<string, string>, sdk: Sdk): (r: CreateStep)
    requires WellFormed(s)
    requires keypair.Some? ==> keypair.value in s.keypairs
    ensures WellFormed(r.store)
  {
    match ParsePayload(body)
    case None => CreateStep(s, InvalidPayload, false)
    case Some(p) =>
      var located := t !in ec2 || p.location in sdk.locationIds;
      var branch := ChooseBranch(t, ec2, PublicKeyOf(s, keypair));
      if branch == Ec2Deploy && !(sdk.importedKey && sdk.securityGroup) then
        CreateStep(s, NodeUnbound, false)
      else if !located || sdk.node.None? then
        CreateStep(s, CreationFailed(branch), false)
      else if branch == Generic then
        CreateStep(s, Created(sdk.node.value), false)
      else
        CreateStep(Recorded(s, keypair.value, backendId, sdk.node.value), Created(sdk.node.value), true)
  }

  /** The handler itself, recording on the live keystore. */
  method CreateMachine(store: KeyStore, t: ProviderType, ec2: set<ProviderType>, backendId: string,
                       keypair: Option<string>, body: map<string, string>, sdk: Sdk)
    returns (outcome: Outcome, flushed: bool)
    requires store.Valid()
    requires keypair.Some? ==> keypair.value in store.keypairs
    modifies store
    ensures store.Valid()
    ensures CreateStep(store.Value(), outcome, flushed)
      == Creation(old(store.Value()), t, ec2, backendId, keypair, body, sdk)
  {
    flushed := false;
    var publicKey := None;
    if keypair.Some? {
      publicKey := Some(store.keypairs[keypair.value].public);
    }
    var payload := ParsePayload(body);
    if payload.None? {
      return InvalidPayload, false;
    }
    var located := true;
    if t in ec2 {
      located := false;
      var i := 0;
      while i < |sdk.locationIds|
        invariant 0 <= i <= |sdk.locationIds|
        invariant !located <==> payload.value.location !in sdk.locationIds[..i]
      {
        if sdk.locationIds[i] == payload.value.location {
          located := true;
          break;
        }
        i := i + 1;
      }
      assert sdk.locationIds[..|sdk.locationIds|] == sdk.locationIds;
    }
    var branch := ChooseBranch(t, ec2, publicKey);
    if branch == Ec2Deploy && !(sdk.importedKey && sdk.securityGroup) {
      return NodeUnbound, false;
    }
    if !located || sdk.node.None? {
      return CreationFailed(branch), false;
    }
    if branch != Generic {
      store.RecordMachine(keypair.value, backendId, sdk.node.value);
      flushed := true;
    }
    outcome := Created(sdk.node.value);
  }

  /** A successful creation through one of the key-deploying branches adds
      exactly one `[backend_id, node_id]` entry to the keypair, without a
      duplicate check, and touches no other key. */
  lemma CreationRecordsOneEntry(s: Store, t: ProviderType, ec2: set<ProviderType>, backendId: string,
                                keypair: Option<string>, body: map<string, string>, sdk: Sdk)
    requires WellFormed(s)
    requires keypair.Some? ==> keypair.value in s.keypairs
    requires ChooseBranch(t, ec2, PublicKeyOf(s, keypair)) != Generic
    ensures var r := Creation(s, t, ec2, backendId, keypair, body, sdk);
      r.outcome.Created? ==>
        && keypair.Some? && r.flushed
        && r.store.keypairs.Keys == s.keypairs.Keys
        && (forall k :: k in s.keypairs && k != keypair.value ==> r.store.keypairs[k] == s.keypairs[k])
        && var before := OrEmpty(s.keypairs[keypair.value].machines);
           var after := r.store.keypairs[keypair.value].machines.value;
           && |after| == |before| + 1
           && multiset(after) == multiset(before) + multiset{[backendId, r.outcome.nodeId]}
           && after[..|before|] == before
  {
    var r := Creation(s, t, ec2, backendId, keypair, body, sdk);
    if r.outcome.Created? {
      RecordMachineAddsOneEntry(s, keypair.value, backendId, r.outcome.nodeId);
    }
  }

  /** A creation that does not produce a node changes nothing and saves
      nothing. */
  lemma FailedCreationRecordsNothing(s: Store, t: ProviderType, ec2: set<ProviderType>, backendId: string,
                                     keypair: Option<string>, body: map<string, string>, sdk: Sdk)
    requires WellFormed(s)
    requires keypair.Some? ==> keypair.value in s.keypairs
    ensures var r := Creation(s, t, ec2, backendId, keypair, body, sdk);
      !r.outcome.Created? ==> r.store == s && !r.flushed
    ensures sdk.node.None? ==> !Creation(s, t, ec2, backendId, keypair, body, sdk).outcome.Created?
  {
  }

  /** The generic branch never records an association, even when a keypair
      was selected: without a public key, or with one on a provider other
      than Rackspace, EC2 or Linode. */
  lemma GenericCreationRecordsNothing(s: Store, t: ProviderType, ec2: set<ProviderType>, backendId: string,
                                      keypair: Option<string>, body: map<string, string>, sdk: Sdk)
    requires WellFormed(s)
    requires keypair.Some? ==> keypair.value in s.keypairs
    requires ChooseBranch(t, ec2, PublicKeyOf(s, keypair)) == Generic
    ensures var r := Creation(s, t, ec2, backendId, keypair, body, sdk);
      r.store == s && !r.flushed
  {
  }

  /** On EC2, a failed key import or security-group creation leaves `node`
      unbound: the handler fails at its final `return` and nothing is
      recorded, whatever the SDK would have returned. */
  lemma Ec2SetupFailureLeavesNodeUnbound(s: Store, t: ProviderType, ec2: set<ProviderType>, backendId: string,
                                         keypair: Option<string>, body: map<string, string>, sdk: Sdk)
    requires WellFormed(s)
    requires keypair.Some? ==> keypair.value in s.keypairs
    requires ParsePayload(body).Some?
    requires ChooseBranch(t, ec2, PublicKeyOf(s, keypair)) == Ec2Deploy
    requires !sdk.importedKey || !sdk.securityGroup
    ensures Creation(s, t, ec2, backendId, keypair, body, sdk) == CreateStep(s, NodeUnbound, false)
  {
  }

  /** `create_machine` changes no default flag, so a store with at most one
      default key keeps at most one. */
  lemma CreationKeepsAtMostOneDefault(s: Store, t: ProviderType, ec2: set<ProviderType>, backendId: string,
                                      keypair: Option<string>, body: map<string, string>, sdk: Sdk)
    requires WellFormed(s) && AtMostOneDefault(s)
    requires keypair.Some? ==> keypair.value in s.keypairs
    ensures AtMostOneDefault(Creation(s, t, ec2, backendId, keypair, body, sdk).store)
  {
    var r := Creation(s, t, ec2, backendId, keypair, body, sdk);
    if r.store != s {
      RecordKeepsAtMostOneDefault(s, keypair.value, backendId, r.outcome.nodeId);
    }
  }

  /** When `create_machine` yields a node: exactly for a valid payload, an
      EC2 location id the connection lists, a successful EC2 key import and
      security group when the EC2 branch runs, and a node from the SDK. An
      invalid payload is answered 400 and changes nothing. */
  lemma CreationOutcomes(s: Store, t: ProviderType, ec2: set<ProviderType>, backendId: string,
                         keypair: Option<string>, body: map<string, string>, sdk: Sdk)
    requires WellFormed(s)
    requires keypair.Some? ==> keypair.value in s.keypairs
    ensures var r := Creation(s, t, ec2, backendId, keypair, body, sdk);
      ParsePayload(body).None? ==> r == CreateStep(s, InvalidPayload, false)
    ensures var r := Creation(s, t, ec2, backendId, keypair, body, sdk);
      r.outcome.Created? <==>
        && ParsePayload(body).Some? && sdk.node.Some?
        && (t in ec2 ==> ParsePayload(body).value.location in sdk.locationIds)
        && (ChooseBranch(t, ec2, PublicKeyOf(s, keypair)) == Ec2Deploy ==> sdk.importedKey && sdk.securityGroup)
    ensures var r := Creation(s, t, ec2, backendId, keypair, body, sdk);
      r.outcome.Created? ==> r.outcome == Created(sdk.node.value)
  {
  }

  /** A creation that yields a node through a key-deploying branch records
      `[backend_id, node_id]` against the selected keypair and saves. */
  lemma CreationSucceedsAndRecords(s: Store, t: ProviderType, ec2: set<ProviderType>, backendId: string,
                                   keypair: Option<string>, body: map<string, string>, sdk: Sdk)
    requires WellFormed(s)
    requires keypair.Some? ==> keypair.value in s.keypairs
    requires ParsePayload(body).Some? && sdk.node.Some?
    requires t in ec2 ==> ParsePayload(body).value.location in sdk.locationIds
    requires ChooseBranch(t, ec2, PublicKeyOf(s, keypair)) == Ec2Deploy ==> sdk.importedKey && sdk.securityGroup
    ensures var r := Creation(s, t, ec2, backendId, keypair, body, sdk);
      && r.outcome == Created(sdk.node.value)
      && (ChooseBranch(t, ec2, PublicKeyOf(s, keypair)) != Generic ==>
            keypair.Some? && r.flushed && r.store == Recorded(s, keypair.value, backendId, sdk.node.value))
  {
  }
}

=== FILE: text.dfy ===
/** String helpers the handlers rely on: decimal rendering of integers (as
    JavaScript's `+` on a string and a number does), reading it back, and
    Python's `str.split` on one separator character. */
module Text {

  predicate IsDigit(c: char) {
    '0' <= c <= '9'
  }

  predicate AllDigits(s: string) {
    forall i :: 0 <= i < |s| ==> IsDigit(s[i])
  }

  function DigitChar(d: nat): (c: char)
    requires d < 10
    ensures IsDigit(c)
  {
    ('0' as int + d) as char
  }

  function DigitValue(c: char): nat
    requires IsDigit(c)
  {
    c as int - '0' as int
  }

  /** The decimal digits of `n`, most significant first, without leading
      zeros. */
  function NatToString(n: nat): (r: string)
    ensures |r| >= 1 && AllDigits(r)
    ensures n > 0 ==> r[0] != '0'
  {
    if n < 10 then [DigitChar(n)] else NatToString(n / 10) + [DigitChar(n % 10)]
  }

  /** The decimal rendering of an integer, with a leading `-` when negative. */
  function IntToString(i: int): string {
    if i < 0 then "-" + NatToString(-i) else NatToString(i)
  }

  /** The value of a string of decimal digits. */
  function DigitsValue(s: string): nat
    requires AllDigits(s)
  {
    if s == [] then 0 else DigitsValue(s[..|s| - 1]) * 10 + DigitValue(s[|s| - 1])
  }

  /** Reading back the rendering of `n` gives `n`. */
  lemma {:induction false} DigitsRoundTrip(n: nat)
    ensures DigitsValue(NatToString(n)) == n
  {
    var s := NatToString(n);
    if n >= 10 {
      DigitsRoundTrip(n / 10);
      assert s[..|s| - 1] == NatToString(n / 10);
    }
  }

  /** The length of the longest prefix of `s` made of digits. */
  function DigitPrefix(s: string): (k: nat)
    ensures k <= |s| && AllDigits(s[..k])
    ensures k < |s| ==> !IsDigit(s[k])
  {
    if s == [] || !IsDigit(s[0]) then 0
    else
      var k := 1 + DigitPrefix(s[1..]);
      assert s[..k] == [s[0]] + s[1..][..k - 1];
      k
  }

  lemma {:induction false} DigitPrefixOf(digits: string, rest: string)
    requires AllDigits(digits)
    requires rest == [] || !IsDigit(rest[0])
    ensures DigitPrefix(digits + rest) == |digits|
  {
    if digits != [] {
      assert (digits + rest)[1..] == digits[1..] + rest;
      DigitPrefixOf(digits[1..], rest);
    }
  }

  /** Python's `parts[0] + c + parts[1] + ...`, the inverse of `Split`. */
  function Join(parts: seq<string>, c: char): string
    requires |parts| >= 1
  {
    if |parts| == 1 then parts[0] else parts[0] + [c] + Join(parts[1..], c)
  }

  /** Python's `s.split(c)`: the pieces between the occurrences of `c`. */
  function Split(s: string, c: char): (r: seq<string>)
    ensures |r| >= 1
    ensures c in s ==> |r| >= 2
    ensures forall i :: 0 <= i < |r| ==> c !in r[i]
    ensures Join(r, c) == s
  {
    if s == [] then [""]
    else
      var rest := Split(s[1..], c);
      if s[0] == c then
        assert ([""] + rest)[1..] == rest;
        [""] + rest
      else
        var r := [[s[0]] + rest[0]] + rest[1..];
        assert |rest| > 1 ==> r[1..] == rest[1..] && Join(r, c) == [s[0]] + Join(rest, c);
        assert s == [s[0]] + s[1..];
        r
  }

  /** Splitting a string without the separator gives the string alone. */
  lemma {:induction false} SplitNoSeparator(s: string, c: char)
    requires c !in s
    ensures Split(s, c) == [s]
  {
    if s != [] {
      SplitNoSeparator(s[1..], c);
    }
  }

  /** The first piece of a split is everything before the first separator. */
  lemma {:induction false} SplitAtFirst(p: string, c: char, rest: string)
    requires c !in p
    ensures Split(p + [c] + rest, c) == [p] + Split(rest, c)
  {
    if p == [] {
      assert p + [c] + rest == [c] + rest;
      assert ([c] + rest)[1..] == rest;
    } else {
      assert (p + [c] + rest)[1..] == p[1..] + [c] + rest;
      SplitAtFirst(p[1..], c, rest);
      assert [p[0]] + p[1..] == p;
    }
  }
}
